=== FILE: README.md ===
# Relay and audio sequencing controllers, modelled in Dafny

The system drives relay-switched lights in step with audio playback. There are
four controller variants. Each one has a worker thread that walks a sequence
and a control loop that reads keys or a button. With the hardware, the mixer
and the threads abstracted away, each variant is a small state machine over
an immutable record:

- `relays.dfy`, module `Relays`: the relay bank. Each pin maps to "relay on",
  which is the pin driven LOW. It holds `SetAll` (every listed pin to one
  state, written in list order) and `DriveStep` (the per-step enumerate loop:
  one index on, every other pin off, last write wins).
- `step_room.dfy`, module `StepRoom` (StepRoomController.py): discrete steps
  `start..N`, one relay per step. At the end every light stays on for a
  counted number of one-second ticks, then all go off. It also models
  `start`, `stop_sequence`, `set_all_relays`, `cleanup` and the keyboard
  dispatch.
- `timed_room.dfy`, module `TimedRoom` (TimedRoomController.py): the pure
  per-tick window evaluator over a sequence of windows and an elapsed time.
  It comes with its invariant: with flags cleared at the start and
  non-decreasing samples, every `activated` flag equals membership in
  `[onTime, offTime)`. The controller around it is modelled too.
- `relay_audio.dfy`, module `RelayAudio` (room2.py): start/resume and pause.
  A pause still in force when a step returns ends the whole sequence.
- `button_room.dfy`, module `ButtonRoom` (main.py): the two-step button
  toggle. A step is marked done and `current_step` advances only when the
  step finished unpaused, so a paused step is played again.

Threads are modelled as interleaved atomic events. Each controller is a
record plus a sequence `workers` of program counters, one per
`run_sequence` thread. `Next` applies one event:
- a key, line or button press handled by the control loop;
- one atomic step of one worker (`Advance`);
- the mixer reaching the end of its clip;
- the KeyboardInterrupt that runs `cleanup` (timeline controller).

The code never guarantees a single worker. `running` is set by the worker
itself, not by `start`, and `stop_sequence` only waits 0.5 s for the worker
to end. So `start` may add a worker while an older one is still alive. The
model keeps every such worker in `workers`. A key press is one atomic event
in the model, so its `stop_sequence` always clears `running` just before its
`start`. `StepRoom.JoinRaceStartsNothing` shows what the atomic handler
hides: a worker that sets `running` during the join makes that `start` spawn
nothing.

Some facts about the code that the model keeps:
- the code has no skip command and no validation errors;
- the timeline controller has no pause;
- room2's resume does not restart a step once the pause has ended the
  sequence.

## Model

| member | source | states |
|---|---|---|
| Relays.SetAll | StepRoomController.py:105-108 | every listed pin ends in the requested state; pins not listed keep their value; the pin set grows by the listed pins |
| Relays.DriveStep | StepRoomController.py:63-65 | the step loop writes every listed pin and leaves every other pin as it was |
| Relays.DriveStepLastWrite | StepRoomController.py:63-65 | a pin whose entry is the last for that pin ends on exactly when its index is the lit index (writes happen in list order, later writes win) |
| Relays.DriveStepLightsOne | StepRoomController.py:63-65 | with distinct pins and an index in range, exactly one relay is on: the one at that index |
| Relays.DriveStepOutsideOff | StepRoomController.py:63-65 | with an index the loop never matches, every listed pin ends off, even a pin listed twice |
| Relays.DriveStepOutsideLightsNone | StepRoomController.py:63-65 | an index the loop never matches (a step number below 1 or above N) leaves every relay off, for any pin list |
| Relays.SetAllOnPins | StepRoomController.py:105-108 | after setting all, the lit pins are all of them or none of them |
| Relays.SetAllIdempotent | StepRoomController.py:105-108 | setting all relays twice to the same state equals setting them once |
| Relays.SetAllLastWins | StepRoomController.py:130-137 | stop (all off) followed by set all on/off leaves exactly what the second write asked for |
| StepRoom.Init | StepRoomController.py:30-43 | a new controller is not running, is at step 0, has no worker and has every relay off |
| StepRoom.Start | StepRoomController.py:86-93 | a worker is added only when `running` is clear; otherwise the state is unchanged |
| StepRoom.StopSequence | StepRoomController.py:95-103 | from any state: `running` clear, mixer stopped, every configured relay off, other pins, step and workers untouched |
| StepRoom.SetAllRelays | StepRoomController.py:105-108 | every configured relay gets the same state and nothing else in the controller changes |
| StepRoom.Cleanup | StepRoomController.py:110-114 | cleanup goes through stop: not running, mixer stopped, every relay off |
| StepRoom.KeyCommand | StepRoomController.py:126-144 | a key means a jump exactly when it is a digit 1..N (a step key wins over '7', '8', '9'); jump targets are in 1..N; every other key outside "789qQ" is ignored |
| StepRoom.Press | StepRoomController.py:124-144 | a step key and '9' stop and then start a fresh worker at that step or at 1; '7' and '8' stop and then turn all relays on or off; 'q'/'Q' quits through cleanup; any other key changes nothing |
| StepRoom.JoinRaceStartsNothing | StepRoomController.py:86-103 | a worker that begins during `stop_sequence`'s join sets `running`, and then `start` adds no worker |
| StepRoom.DefaultKeys | StepRoomController.py:126-142 | with three pins, '2' jumps to step 2, '4' is ignored, and '7', '9', 'Q' keep their fixed meanings |
| StepRoom.Advance | StepRoomController.py:55-84 | one worker step moves only that worker's program counter and leaves the number of threads unchanged |
| StepRoom.StepLightsItsRelay | StepRoomController.py:57-68 | a running worker starting step k (1 ≤ k ≤ N) lights relay k alone, sets `current_step` to k, starts the clip, and k-1 indexes a clip |
| StepRoom.StoppedWorkerWindsDown | StepRoomController.py:51-59 | once `running` is clear a worker starts no step and skips the all-on phase: relays untouched, it goes to the exit and `current_step` becomes 0 |
| StepRoom.EndHold | StepRoomController.py:71-84 | past the last step a running worker turns all relays on, holds one tick at a time while running and below the limit, then turns all off and clears `running` |
| StepRoom.Next | StepRoomController.py:117-148 | an event never removes a thread |
| StepRoom.InvInit | StepRoomController.py:30-43 | the constructor satisfies the invariant |
| StepRoom.InvNext | StepRoomController.py:55-144 | under any interleaving every started and played step is at least 1, a played step is at most N, the hold count never exceeds the limit, and `current_step` stays in 0..N |
| StepRoom.PlayingIndexesClip | StepRoomController.py:57-68 | in a reachable room of a valid installation, the clip a worker plays, `AUDIO_FILES[step - 1]`, exists |
| StepRoom.SoloRun | StepRoomController.py:55-84 | running one worker to its end keeps the thread count |
| StepRoom.SoloHold | StepRoomController.py:73-84 | a hold left alone sleeps exactly the remaining ticks and ends with all relays off and `running` clear |
| StepRoom.SoloLoop | StepRoomController.py:57-84 | from step k with `running` set, the run lights k..N in order, holds the full duration and ends cleared |
| StepRoom.SoloRunFromStart | StepRoomController.py:55-84 | a run from `start_step` that nothing interrupts lights exactly `start_step..N` in increasing order; each is a valid relay and clip index when `start_step` ≥ 1; it holds `max(duration, 0)` ticks and ends with `running` clear, `current_step` 0 and every relay off |
| TimedRoom.OnOffExclusive | TimedRoomController.py:59-65 | the turn-on and turn-off conditions never hold together |
| TimedRoom.TickWindow | TimedRoomController.py:59-65 | a window that turns on writes only its pin on and sets its flag; one that turns off writes only its pin off and clears it; otherwise nothing changes |
| TimedRoom.Tick | TimedRoomController.py:56-65 | a tick changes only the flags of firing windows and only the pins of firing windows; every other window and pin is untouched |
| TimedRoom.Reset | TimedRoomController.py:48-49 | at the start of a run every flag is clear and nothing else in the windows changes |
| TimedRoom.TickAfterReset | TimedRoomController.py:47-65 | the first tick after the reset leaves every flag equal to membership in its window |
| TimedRoom.TickKeepsConsistent | TimedRoomController.py:54-65 | with consistent flags at an earlier sample, a tick at a later sample leaves them consistent |
| TimedRoom.Run | TimedRoomController.py:54-66 | the sampling loop keeps the number of windows |
| TimedRoom.RunKeepsConsistent | TimedRoomController.py:54-65 | any non-decreasing run of ticks keeps the flags consistent with the last sample |
| TimedRoom.ScheduleFollowsClock | TimedRoomController.py:47-65 | with flags reset and non-decreasing samples, after every tick `activated` equals `onTime <= elapsed < offTime` for each window |
| TimedRoom.TickKeepsRelaysMatch | TimedRoomController.py:56-65 | with distinct pins, a tick keeps each window's relay equal to its flag |
| TimedRoom.RunKeepsRelaysMatch | TimedRoomController.py:54-65 | with distinct pins, a run of ticks keeps each relay equal to its window's flag |
| TimedRoom.MatchedLights | TimedRoomController.py:59-65 | consistent flags with relays following them light exactly the pins of windows containing the elapsed time |
| TimedRoom.RunLightsActiveWindows | TimedRoomController.py:47-65 | with distinct pins that start off, after a non-decreasing run the lit relays are exactly the windows containing the last sample |
| TimedRoom.DefaultActivePins | config_default.py:15-19 | the default windows contain pin 5 on [0,3), pin 6 on [1,5) and pin 13 on [2,6) |
| TimedRoom.DefaultPins | config_default.py:15-19 | the default schedule's pins are 5, 6 and 13, each once |
| TimedRoom.DefaultActiveAt | config_default.py:15-19 | at 0.5/1.5/3.5/6.5 s the default windows holding the time are {5}/{5,6}/{6,13}/{} |
| TimedRoom.DefaultScheduleLights | config_default.py:15-19 | with the default schedule, samples ending at 0.5/1.5/3.5/6.5 light {5}/{5,6}/{6,13}/{} |
| TimedRoom.Init | TimedRoomController.py:28-40 | a new controller is not running, has no worker and has every scheduled relay off |
| TimedRoom.Start | TimedRoomController.py:83-88 | a worker is added only when `running` is clear; otherwise the state is unchanged |
| TimedRoom.StopSequence | TimedRoomController.py:90-96 | from any state: `running` clear, mixer stopped, every scheduled relay off; flags and workers untouched |
| TimedRoom.SetAllRelays | TimedRoomController.py:98-100 | every scheduled relay gets the same state and nothing else changes |
| TimedRoom.Cleanup | TimedRoomController.py:102-106 | cleanup goes through stop: not running, mixer stopped, every scheduled relay off; schedule and workers untouched |
| TimedRoom.Press | TimedRoomController.py:116-128 | '7'/'8' stop and turn all on/off; '9' and '1' stop and add a fresh worker; any other key changes nothing; the schedule itself is never altered |
| TimedRoom.Advance | TimedRoomController.py:45-81 | one worker step moves only that worker and never changes the schedule's pins |
| TimedRoom.BeginClearsFlags | TimedRoomController.py:46-52 | a beginning worker sets `running` and clears every flag before its first tick |
| TimedRoom.WorkerTickFollowsClock | TimedRoomController.py:54-66 | a running worker's tick at a later sample keeps flags consistent and relays matched, and lights exactly the windows containing the sample |
| TimedRoom.EndHold | TimedRoomController.py:68-81 | when the track ends while running all scheduled relays go on, the hold counts ticks up to the limit, then all go off and `running` clears; a stopped worker skips the hold |
| TimedRoom.Next | TimedRoomController.py:45-132 | an event (key, worker step, end of track, or the KeyboardInterrupt that runs `cleanup`) never removes a thread and never changes the schedule's pins |
| TimedRoom.TrackEndStartsHold | TimedRoomController.py:54-72 | once the track ends under a running worker, its next step turns every scheduled light on and starts the hold |
| TimedRoom.InvInit | TimedRoomController.py:28-40 | the constructor satisfies the invariant |
| TimedRoom.InvAdvance | TimedRoomController.py:45-81 | a worker step keeps the schedule's pins, every scheduled relay written and every hold within its bound |
| TimedRoom.InvPress | TimedRoomController.py:83-128 | the key commands keep the invariant |
| TimedRoom.InvNext | TimedRoomController.py:45-132 | under any interleaving, the final `cleanup` included, the schedule keeps its pins, every scheduled relay has a value, and no hold counts past the limit |
| RelayAudio.Init | room2.py:8-28 | a new controller is not running or paused, is at step 0 and has every relay off |
| RelayAudio.StartOrResume | room2.py:77-89 | not running: add a worker; running and paused: clear `paused` and set `restart_step`; running and not paused: no change |
| RelayAudio.Pause | room2.py:91-97 | acts only when running and not paused: sets `paused` and turns every relay off; otherwise no change |
| RelayAudio.Cleanup | room2.py:99-107 | every relay off and the mixer stopped; nothing else changes |
| RelayAudio.Press | room2.py:122-137 | "1" starts or resumes, "2" pauses, "9" quits through cleanup, any other line changes nothing |
| RelayAudio.Advance | room2.py:39-75 | one worker step moves only that worker's program counter |
| RelayAudio.StepLightsItsRelay | room2.py:47-56 | an unpaused step k lights relay k alone, clears `restart_step` and starts clip k, and k-1 indexes a clip |
| RelayAudio.PausedWorkerIsQuiet | room2.py:30-45 | while paused, a worker at the top of `run_step` changes nothing; one in `play_audio` stops the clip and returns without touching relays |
| RelayAudio.PauseEndsSequence | room2.py:62-66 | when `paused` is set after a step returns, the loop breaks and no later step runs; otherwise the next step follows |
| RelayAudio.SequenceEnd | room2.py:62-75 | the loop ends past step N; the end, normal or by the pause break, leaves every relay off, `running` and `paused` clear and `current_step` 0 |
| RelayAudio.Next | room2.py:122-137 | an event never removes a thread |
| RelayAudio.InvInit | room2.py:8-28 | the constructor satisfies the invariant |
| RelayAudio.InvAdvance | room2.py:39-75 | a worker step keeps every played step in 1..N and `current_step` in 0..N |
| RelayAudio.InvPress | room2.py:77-97 | commands keep the invariant |
| RelayAudio.InvNext | room2.py:39-97 | under any interleaving the played steps are valid relay and clip indices, and only a running controller is paused |
| RelayAudio.SoloRun | room2.py:60-75 | running one worker to its end with nothing paused keeps the thread count |
| RelayAudio.SoloStep | room2.py:39-64 | one pass of the loop left alone lights step k and comes back to the loop head at k + 1, still unpaused |
| RelayAudio.SoloEnd | room2.py:62-75 | past the last step the run lights nothing more and ends with every relay off, the flags clear and `current_step` 0 |
| RelayAudio.SoloLoop | room2.py:60-75 | from the loop head at k, an unpaused run lights k..N in order and ends switched off with the flags clear |
| RelayAudio.SoloRunFromStart | room2.py:60-75 | a run nobody pauses lights exactly 1..N in increasing order, each a valid relay and clip index, and ends with every relay off, `running` and `paused` clear and `current_step` 0 |
| ButtonRoom.Init | main.py:24-40 | at import both relays are off, nothing runs, step 1 is next and no step is done |
| ButtonRoom.ButtonPressed | main.py:105-124 | not running: add a worker; running and not paused: pause, both relays off, clip stopped; running and paused: clear `paused` and set `restart_step` |
| ButtonRoom.PauseThenResume | main.py:114-124 | pause then resume keeps the step and its progress and requests a restart |
| ButtonRoom.Advance | main.py:51-103 | one worker step moves only that worker's program counter |
| ButtonRoom.StepLightsItsRelay | main.py:63-73 | step 1 lights relay 1 alone and step 2 lights relay 2 alone, and the clip starts |
| ButtonRoom.PausedStepRestarts | main.py:42-69 | a pause during the clip stops it; `run_step` skips the two-second tail and goes back to wait; while paused the worker changes nothing |
| ButtonRoom.StepDoneOnlyWhenUnpaused | main.py:86-91 | after `run_step`, the step is marked done and `current_step` advances only if not paused; otherwise both are unchanged |
| ButtonRoom.SequenceEnd | main.py:95-103 | completion turns both relays off and resets `running`/`paused` to false, `current_step` to 1 and both `step_done` flags to false |
| ButtonRoom.Next | main.py:105-124 | an event never removes a thread |
| ButtonRoom.CurrentStepNeverDecreases | main.py:85-103 | every event except the end of a run leaves `current_step` equal or larger |
| ButtonRoom.InvInit | main.py:35-40 | the initial globals satisfy the invariant |
| ButtonRoom.InvAdvance | main.py:85-93 | a worker step keeps both `step_done` keys, `current_step` ≥ 1 and every in-step worker on step 1 or 2 |
| ButtonRoom.InvNext | main.py:85-124 | under every event of the model, where the loop test at line 85 and the read at line 86 are one step, both `step_done` keys stay present, so that read cannot fail |
| ButtonRoom.TwoWorkersOvershoot | main.py:85-91 | two workers finishing step 2 one after the other leave `current_step` at 4 and write `step_done[3]`, so the loop test and the read must not be separated |
| ButtonRoom.RunInvStart | main.py:108-111 | a press in a fresh state starts a worker for which the single-run invariant holds |
| ButtonRoom.RunInvAdvance | main.py:85-93 | the worker's own steps keep "done steps are exactly those below `current_step`" and "inside a step, `current_step` is that step" |
| ButtonRoom.RunInvResting | main.py:89-91 | marking the current step done and moving on keeps "done exactly below `current_step`" |
| ButtonRoom.RunInvHead | main.py:85-88 | at the loop head the current step is not done, so the worker enters it or leaves the loop past step 2, keeping the run invariant |
| ButtonRoom.RunInvNext | main.py:85-124 | every event except a step of another live worker keeps the single-run invariant |
| ButtonRoom.MarkedAtMostOnce | main.py:85-93 | within a run a step is marked done only if it was not done, `current_step` is then in 1..2, and it moves to the next step |

## Left out

- The GPIO library, the pygame mixer, `getch`/`input`, the button interrupt and its debounce, `GPIO.cleanup` and `pygame.mixer.quit`. These are foreign calls. The relays are a map from pin to "on", and the mixer is one `audioBusy` flag that a clip sets, the mixer's own end clears (`ClipEnds`), and `stop` clears.
- Wall-clock time. Every `time.sleep` that only polls is an event that changes nothing. The end-hold is a counted tick loop. The timeline worker receives the elapsed time it samples as a parameter, and the clock itself is not modelled.
- Thread scheduling granularity. A few consecutive statements of one thread are one atomic step. In particular, a worker's test of `running` or `paused` and the relay writes that follow it form one step:
  - StepRoomController.py:58-65 and room2.py:43-53: the test, then the step's relay loop.
  - main.py:56-64: the `paused` test, then the step's relay writes.
  - TimedRoomController.py:54-65: the `running` and busy test, then a tick's writes.
  - StepRoomController.py:71-76: the end-of-run all-on.
  - main.py:85-86: the loop test `current_step <= 2` and the read `step_done[current_step]`. In the code a second worker can run lines 90-91 in between and move `current_step` to 3, and the read then raises KeyError. The first worker's thread dies without the switch-off at lines 96-97 (`TwoWorkersOvershoot` shows the overshoot).
  - main.py:96-103: the end of a run. In the code `running` is cleared at line 99 before `current_step` and `step_done` are reset at lines 101-103. A button press in that gap spawns a worker that sees the old values: it finds `current_step == 3` and ends at once, or finds `step_done[1]` still set and skips step 1.
- The race that granularity hides. In the code, `pause` or `stop_sequence` can run between a worker's test and its writes. The worker then lights a relay after the command switched everything off, and the relay can stay on:
  - main.py: for the whole pause, since the worker is back in `if paused: continue`;
  - TimedRoomController.py: into the next run, because the restart clears that window's flag but never writes its pin.
  The model cannot reach these states. `ButtonRoom.PausedStepRestarts`, `RelayAudio.PausedWorkerIsQuiet`, `StepRoom.StoppedWorkerWindsDown` and the relay lemmas of the timeline controller hold only for a worker that tests after the command.
- The bounded `join(timeout=0.5)` of `stop_sequence`. It changes no state, so a worker it did not wait for stays in `workers`.
- StepRoom.Press and TimedRoom.Press: a key handler's `stop_sequence`, join and `start` are one atomic event, so a worker cannot set `running` between the stop and the start. The code allows that, and then the `start` spawns nothing (see `JoinRaceStartsNothing`).
- Exceptions raised inside a worker thread. With `Valid` configurations and the invariants proved here (`StepRoom.InvNext`, `RelayAudio.InvNext`, `ButtonRoom.InvNext`), none of the cited indexing can fail in the model. The cases left out are fewer clips than relays, and the missing `step_done` key that main.py can read when a second worker runs between lines 85 and 86; the model makes those two lines one step (see "Thread scheduling granularity"). A `start_step` below 1, for which Python's negative index would pick a clip from the end, is never produced by a key (`StepRoom.InvNext`).
- Which clip is playing. Only "a clip is playing" is modelled. `StepLightsItsRelay` states the index validity instead.
- room2's `pygame.mixer.music.pause()`/`unpause()`. The worker notices `paused` and stops the clip itself, and that is the behaviour modelled.
- The config import fallback, `print` and logging. `config_default.py` appears only as the default schedule fixture.
- Windows that share a pin. `TimedRoom.Tick` models them as written: the last write in declaration order wins. The relay-follows-flag lemmas (`TickKeepsRelaysMatch`, `RunLightsActiveWindows`, `WorkerTickFollowsClock`) assume distinct pins. The flag invariant does not.
- TimedRoom.Init: an entry without an `activated` key is represented as a cleared flag, as the `step.get("activated", False)` default reads it.
- RelayAudio.SoloRunFromStart: covers a run nobody pauses, with no other worker moving and every clip playing to its end. A paused run is covered by `PausedWorkerIsQuiet` and `PauseEndsSequence`, one step at a time.
- StepRoom.SoloRunFromStart: covers a run with no key presses, no other worker moving and every clip playing to its end. Interleaved runs are covered only by the per-step lemmas and `InvNext`.
- ButtonRoom.RunInvNext: excludes steps of another live worker. The globals are shared, so two workers can interfere, and the source does not prevent a second worker.
- The room2 and main.py `if __name__`/top-level loops beyond their dispatch: the interrupt handler and the idle `while True: sleep` loop.

=== FILE: button_room.dfy ===
/** The two-step button controller (main.py): step 1 lights relay 1 and plays
    clip 1, step 2 lights relay 2 and plays clip 2. One button cycles through
    start, pause and resume. Unlike the pause/resume step controller, a
    paused step is not lost: it is only marked done, and `current_step`
    only advances, when it finished while not paused, so a paused step is
    played again from its start.

    The module-level globals form an immutable `Room`; every thread running
    `run_sequence` is a program counter in `workers`. */
module ButtonRoom {
  import opened Relays

  const Relay1: Pin := 5
  const Relay2: Pin := 6

  /** The relays in the order every step writes them. */
  const RelayPins: seq<Pin> := [Relay1, Relay2]

  /** The number of steps. */
  const StepCount := 2

  /** Where one worker thread of `run_sequence` stands. */
  datatype Pc =
    | Begin                // spawned by the button, has not yet set `running`
    | Head                 // top of the `while current_step <= 2` loop
    | Waiting(step: int)   // top of `run_step`'s loop, sleeping while `paused`
    | Playing(step: int)   // inside `play_audio`, polling the mixer and `paused`
    | Checking(step: int)  // `play_audio` returned, about to test `paused`
    | Resting              // the two-second sleep; `run_step` returns next
    | Finishing            // the loop is left; about to switch off and reset the globals
    | Exited

  /** The globals, the relays, the mixer's busy flag and the live threads. */
  datatype Room = Room(running: bool, paused: bool, currentStep: int, restartStep: bool,
                       stepDone: map<int, bool>, relays: RelayMap, audioBusy: bool, workers: seq<Pc>)

  /** `step_done[k]`, reading a missing key as not done (keys 1 and 2 are
      always present, see `Inv`). */
  predicate IsDone(done: map<int, bool>, k: int) {
    k in done && done[k]
  }

  /** The state at import time: both relays off, step 1 next, nothing done. */
  function Init(): (r: Room)
    ensures !r.running && !r.paused && r.currentStep == 1 && r.workers == []
    ensures !IsDone(r.stepDone, 1) && !IsDone(r.stepDone, 2)
    ensures OnPins(r.relays, RelayPins) == {}
  {
    Room(false, false, 1, false, map[1 := false, 2 := false], SetAll(map[], RelayPins, false), false, [])
  }

  // ---------------------------------------------------------------------
  // The button
  // ---------------------------------------------------------------------

  /** `button_pressed`: a three-way toggle. Not running, spawn a worker;
      running and not paused, pause (both relays off, clip stopped); running
      and paused, resume (clear `paused`, ask for the step to restart). */
  function ButtonPressed(s: Room): (r: Room)
    ensures !s.running ==> r == s.(workers := s.workers + [Begin])
    ensures s.running && !s.paused ==>
      r.paused && !r.audioBusy && OnPins(r.relays, RelayPins) == {}
      && r == s.(paused := true, relays := r.relays, audioBusy := false)
    ensures s.running && s.paused ==> r == s.(paused := false, restartStep := true)
  {
    if !s.running then s.(workers := s.workers + [Begin])
    else if !s.paused then s.(paused := true, relays := SetAll(s.relays, RelayPins, false), audioBusy := false)
    else s.(paused := false, restartStep := true)
  }

  /** Pressing the button twice while running pauses and then resumes: the
      step and its progress are unchanged and a restart of it is requested. */
  lemma PauseThenResume(s: Room)
    requires s.running && !s.paused
    ensures var r := ButtonPressed(ButtonPressed(s));
      && r.running && !r.paused && r.restartStep
      && r.currentStep == s.currentStep && r.stepDone == s.stepDone && r.workers == s.workers
  {
  }

  // ---------------------------------------------------------------------
  // The worker thread
  // ---------------------------------------------------------------------

  /** One atomic step of worker `w` through `run_sequence` and `run_step`.
      Step 1 writes relay 1 on then relay 2 off, step 2 relay 1 off then
      relay 2 on: exactly the step pattern over `RelayPins`. */
  function Advance(s: Room, w: nat): (r: Room)
    requires w < |s.workers|
    ensures |r.workers| == |s.workers|
    ensures forall v :: 0 <= v < |s.workers| && v != w ==> r.workers[v] == s.workers[v]
    ensures s.workers[w] == Exited ==> r == s
  {
    match s.workers[w]
    case Begin =>
      s.(running := true, workers := s.workers[w := Head])
    case Head =>
      if s.currentStep <= StepCount then
        if !IsDone(s.stepDone, s.currentStep) then
          s.(restartStep := true, workers := s.workers[w := Waiting(s.currentStep)])
        else
          s.(currentStep := s.currentStep + 1)
      else
        s.(workers := s.workers[w := Finishing])
    case Waiting(step) =>
      if s.paused then s
      else if step == 1 || step == 2 then
        s.(restartStep := false, relays := DriveStep(s.relays, RelayPins, step - 1),
           audioBusy := true, workers := s.workers[w := Playing(step)])
      else
        s.(restartStep := false, workers := s.workers[w := Resting])
    case Playing(step) =>
      if !s.audioBusy then s.(workers := s.workers[w := Checking(step)])
      else if s.paused then s.(audioBusy := false, workers := s.workers[w := Checking(step)])
      else s
    case Checking(step) =>
      if s.paused then s.(workers := s.workers[w := Waiting(step)])
      else s.(workers := s.workers[w := Resting])
    case Resting =>
      if !s.paused then
        s.(stepDone := s.stepDone[s.currentStep := true], currentStep := s.currentStep + 1,
           workers := s.workers[w := Head])
      else
        s.(workers := s.workers[w := Head])
    case Finishing =>
      s.(relays := SetAll(s.relays, RelayPins, false), running := false, paused := false,
         currentStep := 1, stepDone := s.stepDone[1 := false][2 := false],
         workers := s.workers[w := Exited])
    case Exited =>
      s
  }

  /** Step 1 lights relay 1 alone and step 2 relay 2 alone. */
  lemma StepLightsItsRelay(s: Room, w: nat, k: int)
    requires w < |s.workers| && s.workers[w] == Waiting(k) && !s.paused
    requires k == 1 || k == 2
    ensures var r := Advance(s, w);
      && r.workers[w] == Playing(k) && r.audioBusy && !r.restartStep
      && OnPins(r.relays, RelayPins) == {if k == 1 then Relay1 else Relay2}
  {
    var lit := DriveStep(s.relays, RelayPins, k - 1);
    assert Advance(s, w) == s.(restartStep := false, relays := lit, audioBusy := true,
                               workers := s.workers[w := Playing(k)]);
    DriveStepLightsOne(s.relays, RelayPins, k - 1);
  }

  /** A pause during the clip makes `play_audio` stop and return, `run_step`
      skips the two-second tail and goes back to waiting, and after the resume
      the same step is played again from its start. */
  lemma PausedStepRestarts(s: Room, w: nat, k: int)
    requires w < |s.workers| && s.paused
    ensures var r := Advance(s, w);
      && (s.workers[w] == Playing(k) && s.audioBusy ==>
            !r.audioBusy && r.relays == s.relays && r.workers[w] == Checking(k))
      && (s.workers[w] == Checking(k) ==> r.workers[w] == Waiting(k) && r.relays == s.relays)
      && (s.workers[w] == Waiting(k) ==> r == s)
  {
  }

  /** After `run_step` returns, the step is marked done and `current_step`
      advances only when `paused` is clear; otherwise both stay as they are,
      so the loop runs the same step again. */
  lemma StepDoneOnlyWhenUnpaused(s: Room, w: nat)
    requires w < |s.workers| && s.workers[w] == Resting
    ensures var r := Advance(s, w);
      && r.workers[w] == Head
      && (!s.paused ==> IsDone(r.stepDone, s.currentStep) && r.currentStep == s.currentStep + 1)
      && (s.paused ==> r.stepDone == s.stepDone && r.currentStep == s.currentStep)
  {
  }

  /** Completion: both relays off, `running` and `paused` clear, step 1 next
      and neither step done. */
  lemma SequenceEnd(s: Room, w: nat)
    requires w < |s.workers| && s.workers[w] == Finishing
    ensures var r := Advance(s, w);
      && OnPins(r.relays, RelayPins) == {} && !r.running && !r.paused
      && r.currentStep == 1 && !IsDone(r.stepDone, 1) && !IsDone(r.stepDone, 2) && r.workers[w] == Exited
  {
  }

  // ---------------------------------------------------------------------
  // The interleaving
  // ---------------------------------------------------------------------

  /** A button press, one step of one worker, or the mixer reaching the end of its clip. */
  datatype Event = Button | Work(w: nat) | ClipEnds

  function Next(s: Room, e: Event): (r: Room)
    ensures |s.workers| <= |r.workers|
  {
    match e
    case Button => ButtonPressed(s)
    case Work(w) => if w < |s.workers| then Advance(s, w) else s
    case ClipEnds => s.(audioBusy := false)
  }

  /** Only the end of a run moves `current_step` back: every other event
      leaves it where it was or moves it forward. */
  lemma CurrentStepNeverDecreases(s: Room, e: Event)
    requires !(e.Work? && e.w < |s.workers| && s.workers[e.w] == Finishing)
    ensures Next(s, e).currentStep >= s.currentStep
  {
    match e
    case Button =>
    case Work(w) =>
      if w < |s.workers| {
        match s.workers[w]
        case Resting =>
        case Finishing =>
        case _ =>
      }
    case ClipEnds =>
  }

  /** Facts every reachable room satisfies, however the threads interleave:
      both `step_done` keys exist, `current_step` is at least 1 and every
      worker inside a step names step 1 or 2. */
  predicate PcOk(pc: Pc) {
    match pc
    case Waiting(step) => 1 <= step <= StepCount
    case Playing(step) => 1 <= step <= StepCount
    case Checking(step) => 1 <= step <= StepCount
    case _ => true
  }

  predicate Inv(s: Room) {
    && 1 in s.stepDone && 2 in s.stepDone
    && 1 <= s.currentStep
    && forall w :: 0 <= w < |s.workers| ==> PcOk(s.workers[w])
  }

  lemma InvInit()
    ensures Inv(Init())
  {
  }

  lemma InvAdvance(s: Room, w: nat)
    requires Inv(s) && w < |s.workers|
    ensures Inv(Advance(s, w))
  {
    var r := Advance(s, w);
    assert PcOk(s.workers[w]);
    forall v | 0 <= v < |r.workers| ensures PcOk(r.workers[v]) {
      if v != w {
        assert r.workers[v] == s.workers[v];
      }
    }
  }

  lemma InvNext(s: Room, e: Event)
    requires Inv(s)
    ensures Inv(Next(s, e))
  {
    match e
    case Button =>
      var r := Next(s, e);
      forall v | 0 <= v < |r.workers| ensures PcOk(r.workers[v]) {
        if v < |s.workers| {
          assert r.workers[v] == s.workers[v];
        }
      }
    case Work(w) => if w < |s.workers| { InvAdvance(s, w); }
    case ClipEnds =>
  }

  // ---------------------------------------------------------------------
  // One run, as long as no other worker moves
  // ---------------------------------------------------------------------

  /** Exactly the steps before `current_step` are done. */
  predicate DoneBelow(s: Room) {
    forall k :: 1 <= k <= StepCount ==> (IsDone(s.stepDone, k) <==> k < s.currentStep)
  }

  /** What worker `w` relies on while it runs: the done steps are those before
      `current_step`, and inside a step `current_step` is that step, still
      not done. */
  predicate RunInv(s: Room, w: nat) {
    && w < |s.workers|
    && DoneBelow(s)
    && 1 <= s.currentStep
    && match s.workers[w]
       case Waiting(step) => step == s.currentStep <= StepCount
       case Playing(step) => step == s.currentStep <= StepCount
       case Checking(step) => step == s.currentStep <= StepCount
       case Resting => s.currentStep <= StepCount
       case _ => true
  }

  /** A button press in a fresh state (the initial one, or one a finished run
      left behind) spawns a worker that `RunInv` holds for. */
  lemma RunInvStart(s: Room)
    requires !s.running && s.currentStep == 1 && !IsDone(s.stepDone, 1) && !IsDone(s.stepDone, 2)
    ensures RunInv(ButtonPressed(s), |s.workers|)
  {
  }

  /** Every event keeps `RunInv` for worker `w` except a step of another live
      worker, since the globals are shared. */
  lemma RunInvNext(s: Room, w: nat, e: Event)
    requires RunInv(s, w)
    requires e.Work? && e.w != w && e.w < |s.workers| ==> s.workers[e.w] == Exited
    ensures RunInv(Next(s, e), w)
  {
    var r := Next(s, e);
    if e.Work? && e.w == w {
      RunInvAdvance(s, w);
    } else {
      assert r.stepDone == s.stepDone && r.currentStep == s.currentStep;
      assert r.workers[w] == s.workers[w];
    }
  }

  lemma RunInvAdvance(s: Room, w: nat)
    requires RunInv(s, w)
    ensures RunInv(Advance(s, w), w)
  {
    match s.workers[w]
    case Resting => RunInvResting(s, w);
    case Head => RunInvHead(s, w);
    case Finishing =>
      var r := Advance(s, w);
      assert r.stepDone == s.stepDone[1 := false][2 := false];
    case _ =>
      var r := Advance(s, w);
      assert r.stepDone == s.stepDone && r.currentStep == s.currentStep;
  }

  /** The end of a step keeps `RunInv`: marking the current step done and
      moving on keeps "done exactly below `current_step`". */
  lemma RunInvResting(s: Room, w: nat)
    requires RunInv(s, w) && s.workers[w] == Resting
    ensures RunInv(Advance(s, w), w)
  {
    var r := Advance(s, w);
    if !s.paused {
      forall k | 1 <= k <= StepCount ensures IsDone(r.stepDone, k) <==> k < r.currentStep {
        if k != s.currentStep {
          assert IsDone(r.stepDone, k) == IsDone(s.stepDone, k);
        }
      }
    } else {
      assert r.stepDone == s.stepDone && r.currentStep == s.currentStep;
    }
  }

  /** The loop head keeps `RunInv`: under it the current step is never done,
      so the head enters it or leaves the loop past step 2. */
  lemma RunInvHead(s: Room, w: nat)
    requires RunInv(s, w) && s.workers[w] == Head
    ensures RunInv(Advance(s, w), w)
  {
    var r := Advance(s, w);
    assert r.stepDone == s.stepDone;
  }

  /** Within a run, a step is marked done at most once: when it is marked, it
      was not done before, and `current_step` moves to the next step. */
  lemma MarkedAtMostOnce(s: Room, w: nat)
    requires RunInv(s, w) && s.workers[w] == Resting && !s.paused
    ensures var r := Advance(s, w);
      && !IsDone(s.stepDone, s.currentStep) && IsDone(r.stepDone, s.currentStep)
      && r.currentStep == s.currentStep + 1 && 1 <= s.currentStep <= StepCount
  {
  }

  /** Two workers leaving step 2 one after the other: the globals are shared,
      so each marks `step_done[current_step]` and moves `current_step` on,
      past the last step and into a key the dictionary did not have. The
      code reads `step_done[current_step]` right after testing
      `current_step <= 2`; only the model's single step for that test and
      read keeps a worker from reading key 3. */
  lemma TwoWorkersOvershoot(s: Room, a: nat, b: nat)
    requires a < |s.workers| && b < |s.workers| && a != b
    requires s.workers[a] == Resting && s.workers[b] == Resting
    requires !s.paused && s.currentStep == 2
    ensures var r := Advance(Advance(s, a), b);
      && r.currentStep == 4 && 3 in r.stepDone && r.stepDone[3]
      && r.workers[a] == Head && r.workers[b] == Head
  {
  }
}

=== FILE: relay_audio.dfy ===
/** The pause/resume step controller (RelayAudioController): steps 1..N each
    light one relay and play one clip; '1' starts or resumes, '2' pauses.
    A pause that is still in force when a step returns ends the whole
    sequence: the step is not re-run.

    The object's fields form an immutable `Room`; every `run_sequence`
    thread is a program counter in `workers`. */
module RelayAudio {
  import opened Relays

  /** RELAY_PINS and AUDIO_FILES. */
  datatype Config = Config(pins: seq<Pin>, clips: seq<string>)

  /** One relay per pin and a clip for every step. */
  predicate Valid(c: Config) {
    Distinct(c.pins) && |c.pins| <= |c.clips|
  }

  /** Where one worker thread of `run_sequence` stands. */
  datatype Pc =
    | Begin               // spawned by `start_or_resume`, has not yet set `running`
    | StepHead(step: int) // top of the step loop, about to enter `run_step(step)`
    | Waiting(step: int)  // top of `run_step`'s loop, sleeping while `paused`
    | Playing(step: int)  // inside `play_audio`, polling the mixer and `paused`
    | Resting(step: int)  // the two-second sleep at the end of `run_step`
    | Finishing           // the step loop is left; about to switch off and clear the flags
    | Exited

  /** The controller's fields, the relays, the mixer's busy flag and the live threads. */
  datatype Room = Room(running: bool, paused: bool, currentStep: int, restartStep: bool,
                       relays: RelayMap, audioBusy: bool, workers: seq<Pc>)

  /** The constructor: every relay off, nothing running. */
  function Init(c: Config): (r: Room)
    ensures !r.running && !r.paused && r.currentStep == 0 && r.workers == []
    ensures OnPins(r.relays, c.pins) == {} && r.relays.Keys == PinSet(c.pins)
  {
    Room(false, false, 0, false, SetAll(map[], c.pins, false), false, [])
  }

  // ---------------------------------------------------------------------
  // Commands
  // ---------------------------------------------------------------------

  /** `start_or_resume`: not running, spawn a worker; running and paused,
      clear `paused` and ask for the step to restart; running and not paused,
      nothing changes. The mixer's unpause is not modelled. */
  function StartOrResume(s: Room): (r: Room)
    ensures !s.running ==> r == s.(workers := s.workers + [Begin])
    ensures s.running && s.paused ==> r == s.(paused := false, restartStep := true)
    ensures s.running && !s.paused ==> r == s
  {
    if !s.running then s.(workers := s.workers + [Begin])
    else if s.paused then s.(paused := false, restartStep := true)
    else s
  }

  /** `pause`: only a running, unpaused controller reacts; it sets `paused`
      and switches every relay off. The mixer's pause is not modelled: the
      worker notices `paused` and stops the clip itself. */
  function Pause(c: Config, s: Room): (r: Room)
    ensures s.running && !s.paused ==> r.paused && OnPins(r.relays, c.pins) == {}
    ensures s.running && !s.paused ==> r == s.(paused := true, relays := r.relays)
    ensures !(s.running && !s.paused) ==> r == s
  {
    if s.running && !s.paused then s.(paused := true, relays := SetAll(s.relays, c.pins, false))
    else s
  }

  /** `cleanup`: every relay off and the mixer stopped; the flags are left
      as they are. */
  function Cleanup(c: Config, s: Room): (r: Room)
    ensures OnPins(r.relays, c.pins) == {} && !r.audioBusy
    ensures r == s.(relays := r.relays, audioBusy := false)
  {
    s.(relays := SetAll(s.relays, c.pins, false), audioBusy := false)
  }

  /** The room after one input line and whether the loop ends. */
  datatype Reaction = Reaction(room: Room, quit: bool)

  /** One turn of the input loop on a stripped line: "1" starts or resumes,
      "2" pauses, "9" leaves the loop, whose `finally` runs `cleanup`; any
      other line changes nothing. */
  function Press(c: Config, s: Room, line: string): (r: Reaction)
    ensures line == "1" ==> r == Reaction(StartOrResume(s), false)
    ensures line == "2" ==> r == Reaction(Pause(c, s), false)
    ensures line == "9" ==> r.quit && OnPins(r.room.relays, c.pins) == {}
    ensures line !in {"1", "2", "9"} ==> r == Reaction(s, false)
  {
    if line == "1" then Reaction(StartOrResume(s), false)
    else if line == "2" then Reaction(Pause(c, s), false)
    else if line == "9" then Reaction(Cleanup(c, s), true)
    else Reaction(s, false)
  }

  // ---------------------------------------------------------------------
  // The worker thread
  // ---------------------------------------------------------------------

  /** One atomic step of worker `w` through `run_sequence` and `run_step`. */
  function Advance(c: Config, s: Room, w: nat): (r: Room)
    requires w < |s.workers|
    ensures |r.workers| == |s.workers|
    ensures forall v :: 0 <= v < |s.workers| && v != w ==> r.workers[v] == s.workers[v]
    ensures s.workers[w] == Exited ==> r == s
  {
    match s.workers[w]
    case Begin =>
      s.(running := true, workers := s.workers[w := StepHead(1)])
    case StepHead(step) =>
      if step <= |c.pins| then
        s.(restartStep := true, currentStep := step, workers := s.workers[w := Waiting(step)])
      else
        s.(workers := s.workers[w := Finishing])
    case Waiting(step) =>
      if s.paused then s
      else
        s.(restartStep := false, relays := DriveStep(s.relays, c.pins, step - 1),
           audioBusy := true, workers := s.workers[w := Playing(step)])
    case Playing(step) =>
      if !s.audioBusy then s.(workers := s.workers[w := Resting(step)])
      else if s.paused then s.(audioBusy := false, workers := s.workers[w := Resting(step)])
      else s
    case Resting(step) =>
      if s.paused then s.(workers := s.workers[w := Finishing])
      else s.(workers := s.workers[w := StepHead(step + 1)])
    case Finishing =>
      s.(relays := SetAll(s.relays, c.pins, false), running := false, paused := false,
         currentStep := 0, workers := s.workers[w := Exited])
    case Exited =>
      s
  }

  /** An unpaused step k lights relay k alone, clears the restart request
      and plays clip k. */
  lemma StepLightsItsRelay(c: Config, s: Room, w: nat, k: int)
    requires Valid(c)
    requires w < |s.workers| && s.workers[w] == Waiting(k) && !s.paused
    requires 1 <= k <= |c.pins|
    ensures var r := Advance(c, s, w);
      && r.workers[w] == Playing(k) && r.audioBusy && !r.restartStep
      && OnPins(r.relays, c.pins) == {c.pins[k - 1]}
      && 0 <= k - 1 < |c.clips|
  {
    var lit := DriveStep(s.relays, c.pins, k - 1);
    assert Advance(c, s, w) == s.(restartStep := false, relays := lit, audioBusy := true,
                                  workers := s.workers[w := Playing(k)]);
    DriveStepLightsOne(s.relays, c.pins, k - 1);
  }

  /** While `paused` holds, a worker at the top of `run_step` writes no relay
      and starts no clip; one inside `play_audio` stops the clip and returns
      without touching the relays. */
  lemma PausedWorkerIsQuiet(c: Config, s: Room, w: nat)
    requires w < |s.workers| && s.paused
    ensures var r := Advance(c, s, w);
      && (s.workers[w].Waiting? ==> r == s)
      && (s.workers[w].Playing? && s.audioBusy ==>
            !r.audioBusy && r.relays == s.relays && r.workers[w] == Resting(s.workers[w].step))
  {
  }

  /** A pause still in force when a step returns ends the sequence: no later
      step runs, even though the pause did not ask for that. */
  lemma PauseEndsSequence(c: Config, s: Room, w: nat)
    requires w < |s.workers| && s.workers[w].Resting?
    ensures var r := Advance(c, s, w);
      && (s.paused ==> r.workers[w] == Finishing && r.relays == s.relays)
      && (!s.paused ==> r.workers[w] == StepHead(s.workers[w].step + 1))
  {
  }

  /** The end of the sequence, whether after the last step or after a pause
      broke the loop: every relay off, `running` and `paused` clear,
      `current_step` 0. */
  lemma SequenceEnd(c: Config, s: Room, w: nat)
    requires w < |s.workers|
    ensures var r := Advance(c, s, w);
      && (s.workers[w].StepHead? && s.workers[w].step > |c.pins| ==> r.workers[w] == Finishing)
      && (s.workers[w] == Finishing ==>
            && OnPins(r.relays, c.pins) == {} && !r.running && !r.paused
            && r.currentStep == 0 && r.workers[w] == Exited)
  {
  }

  // ---------------------------------------------------------------------
  // The interleaving
  // ---------------------------------------------------------------------

  /** An input line, one step of one worker, or the mixer reaching the end of its clip. */
  datatype Event = Line(line: string) | Work(w: nat) | ClipEnds

  function Next(c: Config, s: Room, e: Event): (r: Room)
    ensures |s.workers| <= |r.workers|
  {
    match e
    case Line(line) => Press(c, s, line).room
    case Work(w) => if w < |s.workers| then Advance(c, s, w) else s
    case ClipEnds => s.(audioBusy := false)
  }

  /** Facts every reachable room satisfies: a worker inside a step names a
      configured step, and every relay has been written. */
  predicate PcOk(c: Config, pc: Pc) {
    match pc
    case Waiting(step) => 1 <= step <= |c.pins|
    case Playing(step) => 1 <= step <= |c.pins|
    case Resting(step) => 1 <= step <= |c.pins|
    case StepHead(step) => 1 <= step
    case _ => true
  }

  predicate Inv(c: Config, s: Room) {
    && 0 <= s.currentStep <= |c.pins|
    && (s.paused ==> s.running)
    && PinSet(c.pins) <= s.relays.Keys
    && forall w :: 0 <= w < |s.workers| ==> PcOk(c, s.workers[w])
  }

  lemma InvInit(c: Config)
    ensures Inv(c, Init(c))
  {
  }

  lemma InvAdvance(c: Config, s: Room, w: nat)
    requires Inv(c, s) && w < |s.workers|
    ensures Inv(c, Advance(c, s, w))
  {
    var r := Advance(c, s, w);
    assert PcOk(c, s.workers[w]);
    assert PinSet(c.pins) <= r.relays.Keys;
    forall v | 0 <= v < |r.workers| ensures PcOk(c, r.workers[v]) {
      if v != w {
        assert r.workers[v] == s.workers[v];
      }
    }
  }

  lemma InvPress(c: Config, s: Room, line: string)
    requires Inv(c, s)
    ensures Inv(c, Press(c, s, line).room)
  {
    var r := Press(c, s, line).room;
    forall v | 0 <= v < |r.workers| ensures PcOk(c, r.workers[v]) {
      if v < |s.workers| {
        assert r.workers[v] == s.workers[v];
      }
    }
  }

  /** However commands and workers interleave, every step a worker plays is a
      valid index into the relays and the clips, `current_step` stays in 0..N,
      and only a running controller is paused. */
  lemma InvNext(c: Config, s: Room, e: Event)
    requires Inv(c, s)
    ensures Inv(c, Next(c, s, e))
  {
    match e
    case Line(line) => InvPress(c, s, line);
    case Work(w) => if w < |s.workers| { InvAdvance(c, s, w); }
    case ClipEnds =>
  }

  // ---------------------------------------------------------------------
  // A run left alone
  // ---------------------------------------------------------------------

  /** A bound on the number of worker steps still ahead of a program counter
      when nothing pauses it. */
  function Rank(c: Config, pc: Pc): nat {
    var n := |c.pins|;
    var left := (step: int) => if step <= n then n - step else 0;
    match pc
    case Exited => 0
    case Finishing => 1
    case Resting(step) => 3 + 4 * left(step)
    case Playing(step) => 4 + 4 * left(step)
    case Waiting(step) => 5 + 4 * left(step)
    case StepHead(step) => if step <= n then 6 + 4 * (n - step) else 2
    case Begin => 7 + 4 * n
  }

  /** What a run shows when nothing else happens: its last room and the steps
      whose relay it lit, in order. */
  datatype Solo = Solo(last: Room, steps: seq<int>)

  /** Worker `w` run to its end while no line is entered, no other worker
      moves and every clip plays to its end. Nothing sets `paused` then, so
      the worker never waits. */
  function SoloRun(c: Config, s: Room, w: nat): (r: Solo)
    requires w < |s.workers| && !s.paused
    ensures |r.last.workers| == |s.workers|
    decreases Rank(c, s.workers[w])
  {
    var pc := s.workers[w];
    if pc == Exited then Solo(s, [])
    else
      var heard := if pc.Playing? then s.(audioBusy := false) else s;
      var t := Advance(c, heard, w);
      var rest := SoloRun(c, t, w);
      var lit := if pc.Waiting? then [pc.step] else [];
      Solo(rest.last, lit + rest.steps)
  }

  /** One pass of the step loop left alone: step k lights its relay and the
      worker comes back to the loop head at k + 1, still unpaused. */
  lemma SoloStep(c: Config, s: Room, w: nat, k: int) returns (next: Room)
    requires w < |s.workers| && s.workers[w] == StepHead(k) && !s.paused && k <= |c.pins|
    ensures w < |next.workers| && next.workers[w] == StepHead(k + 1) && !next.paused
    ensures SoloRun(c, s, w) == Solo(SoloRun(c, next, w).last, [k] + SoloRun(c, next, w).steps)
  {
    var head := Advance(c, s, w);
    var playing := Advance(c, head, w);
    var resting := Advance(c, playing.(audioBusy := false), w);
    next := Advance(c, resting, w);
    var tail := SoloRun(c, next, w);
    assert SoloRun(c, resting, w) == tail;
    assert SoloRun(c, playing, w) == tail;
    assert SoloRun(c, head, w) == Solo(tail.last, [k] + tail.steps);
  }

  /** Past the last step the worker switches every relay off and clears the flags. */
  lemma SoloEnd(c: Config, s: Room, w: nat, k: int)
    requires w < |s.workers| && s.workers[w] == StepHead(k) && !s.paused && |c.pins| < k
    ensures var r := SoloRun(c, s, w);
      && r.steps == []
      && !r.last.running && !r.last.paused && r.last.currentStep == 0
      && OnPins(r.last.relays, c.pins) == {} && r.last.workers[w] == Exited
  {
    var head := Advance(c, s, w);
    var done := Advance(c, head, w);
    assert SoloRun(c, done, w) == Solo(done, []);
    SetAllOnPins(head.relays, c.pins, false);
  }

  lemma {:induction false} SoloLoop(c: Config, s: Room, w: nat, k: int)
    requires w < |s.workers| && s.workers[w] == StepHead(k) && !s.paused
    ensures var r := SoloRun(c, s, w);
      && r.steps == StepsFrom(k, |c.pins|)
      && !r.last.running && !r.last.paused && r.last.currentStep == 0
      && OnPins(r.last.relays, c.pins) == {} && r.last.workers[w] == Exited
    decreases if k <= |c.pins| then |c.pins| + 1 - k else 0
  {
    if k <= |c.pins| {
      var next := SoloStep(c, s, w, k);
      SoloLoop(c, next, w, k + 1);
      assert StepsFrom(k, |c.pins|) == [k] + StepsFrom(k + 1, |c.pins|);
    } else {
      SoloEnd(c, s, w, k);
    }
  }

  /** A run nobody pauses lights steps 1, 2, …, N in increasing order, one
      each, every one a valid relay and clip index, and ends with every relay
      off, `running` and `paused` clear and `current_step` 0. */
  lemma SoloRunFromStart(c: Config, s: Room, w: nat)
    requires w < |s.workers| && s.workers[w] == Begin && !s.paused
    ensures var r := SoloRun(c, s, w);
      && r.steps == StepsFrom(1, |c.pins|)
      && !r.last.running && !r.last.paused && r.last.currentStep == 0
      && OnPins(r.last.relays, c.pins) == {} && r.last.workers[w] == Exited
    ensures Valid(c) ==>
      forall i :: 0 <= i < |SoloRun(c, s, w).steps| ==>
        1 <= SoloRun(c, s, w).steps[i] <= |c.pins| && SoloRun(c, s, w).steps[i] - 1 < |c.clips|
  {
    SoloLoop(c, Advance(c, s, w), w, 1);
  }
}

=== FILE: relays.dfy ===
/** The relay bank shared by every controller: active-low GPIO pins, each
    driving one light. A pin driven LOW energises its relay (the light is on),
    a pin driven HIGH releases it. The model keeps only the logical state
    "relay on", so `true` stands for GPIO.LOW throughout. */
module Relays {

  /** A BCM GPIO pin number. */
  type Pin = int

  /** The last value written to each pin: `true` iff the pin was driven LOW. */
  type RelayMap = map<Pin, bool>

  /** No pin is listed twice. */
  predicate Distinct(pins: seq<Pin>) {
    forall i, j :: 0 <= i < j < |pins| ==> pins[i] != pins[j]
  }

  function PinSet(pins: seq<Pin>): set<Pin> {
    set p | p in pins
  }

  /** No entry after index `i` repeats the pin at `i`: the write at `i` is the
      last one that pin receives in a pass over the list. */
  predicate LastWriteAt(pins: seq<Pin>, i: int)
    requires 0 <= i < |pins|
  {
    forall j :: i < j < |pins| ==> pins[j] != pins[i]
  }

  /** The step numbers `range(from, n + 1)` visits, in order: the step loop of
      the two list-driven step controllers, step k driving the pin at index
      k - 1. */
  function StepsFrom(from: int, n: int): seq<int> {
    seq(if from <= n then n + 1 - from else 0, i => from + i)
  }

  /** The listed pins whose relay is currently on. */
  function OnPins(m: RelayMap, pins: seq<Pin>): set<Pin> {
    set p | p in pins && p in m && m[p]
  }

  /** Writes the same state to every pin of `pins`, in list order
      (set_all_relays, and the all-on / all-off loops of the end-hold). */
  function SetAll(m: RelayMap, pins: seq<Pin>, on: bool): (r: RelayMap)
    ensures r.Keys == m.Keys + PinSet(pins)
    ensures forall p :: p in pins ==> r[p] == on
    ensures forall p :: p in m && p !in pins ==> r[p] == m[p]
    decreases |pins|
  {
    if |pins| == 0 then m else SetAll(m[pins[0] := on], pins[1..], on)
  }

  /** The per-step loop `for i, pin in enumerate(pins): LOW if i == lit else HIGH`,
      writing in list order. */
  function DriveStep(m: RelayMap, pins: seq<Pin>, lit: int): (r: RelayMap)
    ensures r.Keys == m.Keys + PinSet(pins)
    ensures forall p :: p in m && p !in pins ==> r[p] == m[p]
    decreases |pins|
  {
    if |pins| == 0 then m
    else
      var n := |pins| - 1;
      DriveStep(m, pins[..n], lit)[pins[n] := (n == lit)]
  }

  /** A pin listed twice keeps its last write: the state of `pins[i]` is
      decided by whether `i` is the lit index exactly when no later entry
      repeats that pin. */
  lemma {:induction false} DriveStepLastWrite(m: RelayMap, pins: seq<Pin>, lit: int, i: int)
    requires 0 <= i < |pins| && LastWriteAt(pins, i)
    ensures DriveStep(m, pins, lit)[pins[i]] == (i == lit)
    decreases |pins|
  {
    var n := |pins| - 1;
    var prefix := pins[..n];
    if i < n {
      LastWriteInPrefix(pins, i);
      DriveStepLastWrite(m, prefix, lit, i);
    }
  }

  /** Dropping the final entry keeps a last write at an earlier index a last
      write, and that final entry is a different pin. */
  lemma LastWriteInPrefix(pins: seq<Pin>, i: int)
    requires 0 <= i < |pins| - 1 && LastWriteAt(pins, i)
    ensures LastWriteAt(pins[..|pins| - 1], i)
    ensures pins[..|pins| - 1][i] == pins[i] != pins[|pins| - 1]
  {
    var prefix := pins[..|pins| - 1];
    forall j | i < j < |prefix| ensures prefix[j] != prefix[i] {
      assert prefix[j] == pins[j];
    }
  }

  /** With distinct pins, a step pattern for an index inside the list turns on
      exactly the relay at that index. */
  lemma DriveStepLightsOne(m: RelayMap, pins: seq<Pin>, lit: int)
    requires Distinct(pins)
    requires 0 <= lit < |pins|
    ensures OnPins(DriveStep(m, pins, lit), pins) == {pins[lit]}
  {
    var r := DriveStep(m, pins, lit);
    forall i | 0 <= i < |pins|
      ensures r[pins[i]] == (i == lit)
    {
      DriveStepLastWrite(m, pins, lit, i);
    }
    forall p | p in OnPins(r, pins) ensures p == pins[lit] {
      var i :| 0 <= i < |pins| && pins[i] == p;
      assert r[pins[i]];
    }
  }

  /** With an index the loop never matches, every write is "off", so each
      listed pin ends off, even one listed twice. */
  lemma {:induction false} DriveStepOutsideOff(m: RelayMap, pins: seq<Pin>, lit: int, i: int)
    requires lit < 0 || |pins| <= lit
    requires 0 <= i < |pins|
    ensures !DriveStep(m, pins, lit)[pins[i]]
    decreases |pins|
  {
    var n := |pins| - 1;
    var prefix := pins[..n];
    if pins[i] != pins[n] {
      assert prefix[i] == pins[i];
      DriveStepOutsideOff(m, prefix, lit, i);
    }
  }

  /** A step pattern for an index outside the list (a step number the loop
      never matches) leaves every listed relay off, whether or not a pin is
      listed twice. */
  lemma DriveStepOutsideLightsNone(m: RelayMap, pins: seq<Pin>, lit: int)
    requires lit < 0 || |pins| <= lit
    ensures OnPins(DriveStep(m, pins, lit), pins) == {}
  {
    var r := DriveStep(m, pins, lit);
    forall i | 0 <= i < |pins|
      ensures !r[pins[i]]
    {
      DriveStepOutsideOff(m, pins, lit, i);
    }
  }

  /** After SetAll every listed relay is on, or every one is off. */
  lemma SetAllOnPins(m: RelayMap, pins: seq<Pin>, on: bool)
    ensures OnPins(SetAll(m, pins, on), pins) == if on then PinSet(pins) else {}
  {
  }

  /** Writing the same state to every pin twice is the same as writing it once. */
  lemma SetAllIdempotent(m: RelayMap, pins: seq<Pin>, on: bool)
    ensures SetAll(SetAll(m, pins, on), pins, on) == SetAll(m, pins, on)
  {
    var once := SetAll(m, pins, on);
    var twice := SetAll(once, pins, on);
    assert twice.Keys == once.Keys;
    forall p | p in twice ensures twice[p] == once[p] {}
  }

  /** SetAll overrides whatever an earlier SetAll wrote: only the last state counts. */
  lemma SetAllLastWins(m: RelayMap, pins: seq<Pin>, first: bool, second: bool)
    ensures SetAll(SetAll(m, pins, first), pins, second) == SetAll(m, pins, second)
  {
    var a := SetAll(SetAll(m, pins, first), pins, second);
    var b := SetAll(m, pins, second);
    assert a.Keys == b.Keys;
    forall p | p in a ensures a[p] == b[p] {}
  }
}

=== FILE: step_room.dfy ===
/** The discrete step controller (StepRoomController): step k turns on relay k
    alone and plays clip k; after the last step every light stays on for the
    configured number of one-second ticks, then all go off.

    The controller's fields form an immutable `Room`. Every thread running
    `run_sequence` is a program counter in `workers`; the keyboard loop and
    each worker thread take turns through atomic events (`Next`). The model
    does not assume that at most one worker exists: `start` only looks at
    `running`, and `running` is set by the worker itself. */
module StepRoom {
  import opened Relays

  /** RELAY_PINS, AUDIO_FILES and the end-hold length in seconds. */
  datatype Config = Config(pins: seq<Pin>, clips: seq<string>, holdSeconds: int)

  /** An installation the controller is written for: one relay per pin, and
      a clip for every step. */
  predicate Valid(c: Config) {
    Distinct(c.pins) && |c.pins| <= |c.clips|
  }

  /** Where one worker thread of `run_sequence` stands. */
  datatype Pc =
    | Begin(from: int)     // spawned by `start`, has not yet set `running`
    | LoopHead(step: int)  // top of the step loop, about to test `running`
    | Playing(step: int)   // inside `play_audio`, polling the mixer and `running`
    | Holding(ticks: int)  // in the end-hold loop after `ticks` one-second sleeps
    | Finishing            // every light switched off, about to clear `running`
    | Exited

  /** The controller's fields, the relays, the mixer's busy flag and the live threads. */
  datatype Room = Room(running: bool, currentStep: int, relays: RelayMap, audioBusy: bool, workers: seq<Pc>)

  /** The constructor: every relay off, nothing running. */
  function Init(c: Config): (r: Room)
    ensures !r.running && r.currentStep == 0 && !r.audioBusy && r.workers == []
    ensures r.relays.Keys == PinSet(c.pins)
    ensures OnPins(r.relays, c.pins) == {}
  {
    Room(false, 0, SetAll(map[], c.pins, false), false, [])
  }

  // ---------------------------------------------------------------------
  // Commands issued by the keyboard thread
  // ---------------------------------------------------------------------

  /** `start(from)`: spawns a worker only when `running` is clear. */
  function Start(s: Room, from: int): (r: Room)
    ensures !s.running ==> r.workers == s.workers + [Begin(from)]
    ensures !s.running ==> r == s.(workers := r.workers)
    ensures s.running ==> r == s
  {
    if s.running then s else s.(workers := s.workers + [Begin(from)])
  }

  /** `stop_sequence`: clears `running`, stops the mixer and switches every
      relay off. The bounded join does not change any state; a worker that
      outlives it stays in `workers`. */
  function StopSequence(c: Config, s: Room): (r: Room)
    ensures !r.running && !r.audioBusy
    ensures OnPins(r.relays, c.pins) == {}
    ensures forall p :: p in s.relays && p !in c.pins ==> p in r.relays && r.relays[p] == s.relays[p]
    ensures r.currentStep == s.currentStep && r.workers == s.workers
  {
    s.(running := false, audioBusy := false, relays := SetAll(s.relays, c.pins, false))
  }

  /** `set_all_relays(on)`: every configured relay to the same state; nothing else changes. */
  function SetAllRelays(c: Config, s: Room, on: bool): (r: Room)
    ensures forall p :: p in c.pins ==> p in r.relays && r.relays[p] == on
    ensures OnPins(r.relays, c.pins) == if on then PinSet(c.pins) else {}
    ensures r == s.(relays := r.relays)
  {
    s.(relays := SetAll(s.relays, c.pins, on))
  }

  /** `cleanup`: goes through `stop_sequence`; releasing the mixer and the GPIO
      library is not modelled. */
  function Cleanup(c: Config, s: Room): (r: Room)
    ensures !r.running && !r.audioBusy
    ensures OnPins(r.relays, c.pins) == {}
    ensures r.workers == s.workers
  {
    StopSequence(c, s)
  }

  // ---------------------------------------------------------------------
  // The keyboard loop
  // ---------------------------------------------------------------------

  /** What one key press asks for. */
  datatype Command = Jump(step: int) | AllOn | AllOff | Restart | Quit | Ignore

  /** The number a digit character stands for. */
  function DigitValue(key: char): int {
    key as int - '0' as int
  }

  /** A step key: a single character among `str(1)`, …, `str(n)`; with more
      than nine steps the steps above nine have no key. */
  predicate IsStepKey(n: int, key: char) {
    '1' <= key <= '9' && DigitValue(key) <= n
  }

  /** The `if`/`elif` chain of the keyboard loop, in its order: a step key
      wins over the fixed meanings of '7', '8' and '9'. */
  function KeyCommand(n: int, key: char): (cmd: Command)
    ensures cmd.Jump? <==> IsStepKey(n, key)
    ensures cmd.Jump? ==> 1 <= cmd.step <= n && cmd.step <= 9
    ensures cmd == Ignore <==> !IsStepKey(n, key) && key !in "789qQ"
  {
    if IsStepKey(n, key) then Jump(DigitValue(key))
    else if key == '7' then AllOn
    else if key == '8' then AllOff
    else if key == '9' then Restart
    else if key == 'q' || key == 'Q' then Quit
    else Ignore
  }

  /** The room after a key and whether the loop ends. */
  datatype Reaction = Reaction(room: Room, quit: bool)

  /** One turn of the keyboard loop; a quit key leaves the loop, whose
      `finally` runs `cleanup`. A step key or '9' stops the sequence and then
      starts a fresh worker, because the handler's own `stop_sequence` has
      just cleared `running`. The whole handler is one atomic event here; the
      source lets a worker run during the bounded join in between. */
  function Press(c: Config, s: Room, key: char): (r: Reaction)
    ensures IsStepKey(|c.pins|, key) ==>
      && !r.quit && !r.room.running && OnPins(r.room.relays, c.pins) == {}
      && r.room.workers == s.workers + [Begin(DigitValue(key))]
    ensures key == '9' && !IsStepKey(|c.pins|, key) ==>
      && !r.quit && !r.room.running && OnPins(r.room.relays, c.pins) == {}
      && r.room.workers == s.workers + [Begin(1)]
    ensures key == '7' && !IsStepKey(|c.pins|, key) ==>
      && !r.quit && !r.room.running && OnPins(r.room.relays, c.pins) == PinSet(c.pins)
      && r.room.workers == s.workers
    ensures key == '8' && !IsStepKey(|c.pins|, key) ==>
      && !r.quit && !r.room.running && OnPins(r.room.relays, c.pins) == {}
      && r.room.workers == s.workers
    ensures (key == 'q' || key == 'Q') ==>
      r.quit && !r.room.running && OnPins(r.room.relays, c.pins) == {}
    ensures !IsStepKey(|c.pins|, key) && key !in "789qQ" ==> r == Reaction(s, false)
  {
    match KeyCommand(|c.pins|, key)
    case Jump(k) => Reaction(Start(StopSequence(c, s), k), false)
    case AllOn => Reaction(SetAllRelays(c, StopSequence(c, s), true), false)
    case AllOff => Reaction(SetAllRelays(c, StopSequence(c, s), false), false)
    case Restart => Reaction(Start(StopSequence(c, s), 1), false)
    case Quit => Reaction(Cleanup(c, s), true)
    case Ignore => Reaction(s, false)
  }

  /** The race the atomic key handler hides: a worker spawned earlier that
      sets `running` during `stop_sequence`'s bounded join makes the
      handler's `start` spawn nothing. */
  lemma JoinRaceStartsNothing(c: Config, s: Room, w: nat, k: int)
    requires w < |s.workers| && s.workers[w].Begin?
    ensures var raced := Advance(c, StopSequence(c, s), w);
      && raced.running && Start(raced, k) == raced
      && |Start(raced, k).workers| == |s.workers|
  {
  }

  /** With the three default pins the step keys are exactly '1', '2' and '3',
      so '7', '8' and '9' keep their fixed meanings. */
  lemma DefaultKeys()
    ensures KeyCommand(3, '2') == Jump(2)
    ensures KeyCommand(3, '4') == Ignore
    ensures KeyCommand(3, '7') == AllOn
    ensures KeyCommand(3, '9') == Restart
    ensures KeyCommand(3, 'Q') == Quit
  {
  }

  // ---------------------------------------------------------------------
  // The worker thread
  // ---------------------------------------------------------------------

  /** One atomic step of worker `w` through `run_sequence`. Clearing the mixer
      and `running` are the only ways other threads interact with it. */
  function Advance(c: Config, s: Room, w: nat): (r: Room)
    requires w < |s.workers|
    ensures |r.workers| == |s.workers|
    ensures forall v :: 0 <= v < |s.workers| && v != w ==> r.workers[v] == s.workers[v]
    ensures s.workers[w] == Exited ==> r == s
  {
    match s.workers[w]
    case Begin(from) =>
      s.(running := true, workers := s.workers[w := LoopHead(from)])
    case LoopHead(step) =>
      if step <= |c.pins| && s.running then
        s.(currentStep := step, relays := DriveStep(s.relays, c.pins, step - 1),
           audioBusy := true, workers := s.workers[w := Playing(step)])
      else if s.running then
        s.(currentStep := 0, relays := SetAll(s.relays, c.pins, true),
           workers := s.workers[w := Holding(0)])
      else
        s.(currentStep := 0, workers := s.workers[w := Finishing])
    case Playing(step) =>
      if s.audioBusy && s.running then s
      else s.(audioBusy := false, workers := s.workers[w := LoopHead(step + 1)])
    case Holding(ticks) =>
      if ticks < c.holdSeconds && s.running then s.(workers := s.workers[w := Holding(ticks + 1)])
      else s.(relays := SetAll(s.relays, c.pins, false), workers := s.workers[w := Finishing])
    case Finishing =>
      s.(running := false, workers := s.workers[w := Exited])
    case Exited =>
      s
  }

  /** During step k relay k is the only one on, clip k is playing and
      `current_step` is k; k is a valid index into the clips. */
  lemma StepLightsItsRelay(c: Config, s: Room, w: nat, k: int)
    requires Valid(c)
    requires w < |s.workers| && s.workers[w] == LoopHead(k)
    requires s.running && 1 <= k <= |c.pins|
    ensures var r := Advance(c, s, w);
      && r.workers[w] == Playing(k) && r.currentStep == k && r.audioBusy
      && OnPins(r.relays, c.pins) == {c.pins[k - 1]}
      && 0 <= k - 1 < |c.clips|
  {
    var lit := DriveStep(s.relays, c.pins, k - 1);
    assert Advance(c, s, w) == s.(currentStep := k, relays := lit, audioBusy := true,
                                  workers := s.workers[w := Playing(k)]);
    DriveStepLightsOne(s.relays, c.pins, k - 1);
  }

  /** Once `running` is clear a worker starts no further step and skips the
      all-on phase: it leaves the relays as they are and heads for the exit. */
  lemma StoppedWorkerWindsDown(c: Config, s: Room, w: nat)
    requires w < |s.workers| && !s.running
    requires s.workers[w].LoopHead? || s.workers[w].Playing?
    ensures var r := Advance(c, s, w);
      && r.relays == s.relays && !r.audioBusy == (s.workers[w].Playing? || !s.audioBusy)
      && (s.workers[w].LoopHead? ==> r.workers[w] == Finishing && r.currentStep == 0)
      && (s.workers[w].Playing? ==> r.workers[w] == LoopHead(s.workers[w].step + 1))
  {
  }

  /** Completion: past the last step a running worker turns every relay on,
      sleeps one tick at a time while `running` holds and fewer than
      `holdSeconds` ticks have passed, then turns every relay off and finally
      clears `running`. */
  lemma EndHold(c: Config, s: Room, w: nat)
    requires w < |s.workers|
    ensures var r := Advance(c, s, w);
      && (s.workers[w].LoopHead? && s.workers[w].step > |c.pins| && s.running ==>
            r.workers[w] == Holding(0) && r.currentStep == 0
            && OnPins(r.relays, c.pins) == PinSet(c.pins))
      && (s.workers[w].Holding? && s.workers[w].ticks < c.holdSeconds && s.running ==>
            r.workers[w] == Holding(s.workers[w].ticks + 1) && r.relays == s.relays)
      && (s.workers[w].Holding? && !(s.workers[w].ticks < c.holdSeconds && s.running) ==>
            r.workers[w] == Finishing && OnPins(r.relays, c.pins) == {})
      && (s.workers[w] == Finishing ==> !r.running && r.workers[w] == Exited)
  {
  }

  // ---------------------------------------------------------------------
  // The interleaving
  // ---------------------------------------------------------------------

  /** A key press, one step of one worker, or the mixer reaching the end of its clip. */
  datatype Event = Key(key: char) | Work(w: nat) | ClipEnds

  function Next(c: Config, s: Room, e: Event): (r: Room)
    ensures |s.workers| <= |r.workers|
  {
    match e
    case Key(key) => Press(c, s, key).room
    case Work(w) => if w < |s.workers| then Advance(c, s, w) else s
    case ClipEnds => s.(audioBusy := false)
  }

  /** Facts every reachable room satisfies, however the threads interleave. */
  predicate PcOk(c: Config, pc: Pc) {
    match pc
    case Begin(from) => 1 <= from
    case LoopHead(step) => 1 <= step
    case Playing(step) => 1 <= step <= |c.pins|
    case Holding(t) => 0 <= t && (t == 0 || t <= c.holdSeconds)
    case _ => true
  }

  predicate Inv(c: Config, s: Room) {
    && 0 <= s.currentStep <= |c.pins|
    && PinSet(c.pins) <= s.relays.Keys
    && forall w :: 0 <= w < |s.workers| ==> PcOk(c, s.workers[w])
  }

  /** The constructor satisfies the invariant. */
  lemma InvInit(c: Config)
    ensures Inv(c, Init(c))
  {
  }

  /** Every step a worker plays is in 1..N, so it names a relay and, in a
      valid configuration, a clip; the end-hold never runs for more than
      `holdSeconds` ticks; `current_step` stays in 0..N. This holds from the
      constructor on, because every `start` comes from a step key or from
      '9', whose step is at least 1. */
  lemma InvNext(c: Config, s: Room, e: Event)
    requires Inv(c, s)
    ensures Inv(c, Next(c, s, e))
  {
    var r := Next(c, s, e);
    forall w | 0 <= w < |r.workers| ensures PcOk(c, r.workers[w]) {
      if e.Work? && e.w < |s.workers| && w == e.w {
        assert PcOk(c, s.workers[w]);
      } else if w < |s.workers| {
        assert r.workers[w] == s.workers[w];
      }
    }
  }

  /** In a reachable room of a valid installation, a worker inside step k
      plays `AUDIO_FILES[k - 1]`, an index that exists. */
  lemma PlayingIndexesClip(c: Config, s: Room, w: nat)
    requires Valid(c) && Inv(c, s) && w < |s.workers| && s.workers[w].Playing?
    ensures 0 <= s.workers[w].step - 1 < |c.pins| <= |c.clips|
  {
    assert PcOk(c, s.workers[w]);
  }

  // ---------------------------------------------------------------------
  // A run left alone
  // ---------------------------------------------------------------------

  function HoldTicks(c: Config): nat {
    if c.holdSeconds > 0 then c.holdSeconds else 0
  }

  /** A bound on the number of worker steps still ahead of a program counter. */
  function Rank(c: Config, pc: Pc): nat {
    var hold := HoldTicks(c);
    var n := |c.pins|;
    match pc
    case Exited => 0
    case Finishing => 1
    case Holding(t) => 2 + (if t < hold then hold - t else 0)
    case Playing(step) => hold + 2 + (if step <= n then 2 * (n + 1 - step) else 2)
    case LoopHead(step) => hold + 3 + (if step <= n then 2 * (n + 1 - step) else 0)
    case Begin(from) => hold + 4 + (if from <= n then 2 * (n + 1 - from) else 0)
  }

  /** What a run shows when nothing else happens: its last room, the steps
      whose relay it lit and the seconds it held all lights on. */
  datatype Solo = Solo(last: Room, steps: seq<int>, ticks: nat)

  /** Worker `w` run to its end while no key is pressed, no other worker moves
      and every clip plays to its end. */
  function SoloRun(c: Config, s: Room, w: nat): (r: Solo)
    requires w < |s.workers|
    ensures |r.last.workers| == |s.workers|
    decreases Rank(c, s.workers[w])
  {
    var pc := s.workers[w];
    if pc == Exited then Solo(s, [], 0)
    else
      var heard := if pc.Playing? then s.(audioBusy := false) else s;
      var t := Advance(c, heard, w);
      var rest := SoloRun(c, t, w);
      var lit := if pc.LoopHead? && t.workers[w].Playing? then [pc.step] else [];
      var tick := if pc.Holding? && t.workers[w].Holding? then 1 else 0;
      Solo(rest.last, lit + rest.steps, tick + rest.ticks)
  }

  lemma {:induction false} SoloHold(c: Config, s: Room, w: nat, t: int)
    requires w < |s.workers| && s.workers[w] == Holding(t) && s.running && 0 <= t
    ensures var r := SoloRun(c, s, w);
      && r.steps == [] && r.ticks == (if t < c.holdSeconds then c.holdSeconds - t else 0)
      && !r.last.running && r.last.currentStep == s.currentStep
      && OnPins(r.last.relays, c.pins) == {} && r.last.workers[w] == Exited
    decreases if t < c.holdSeconds then c.holdSeconds - t else 0
  {
    var next := Advance(c, s, w);
    if t < c.holdSeconds {
      SoloHold(c, next, w, t + 1);
    } else {
      var done := Advance(c, next, w);
      assert SoloRun(c, done, w) == Solo(done, [], 0);
    }
  }

  lemma {:induction false} SoloLoop(c: Config, s: Room, w: nat, k: int)
    requires w < |s.workers| && s.workers[w] == LoopHead(k) && s.running
    ensures var r := SoloRun(c, s, w);
      && r.steps == StepsFrom(k, |c.pins|) && r.ticks == HoldTicks(c)
      && !r.last.running && r.last.currentStep == 0
      && OnPins(r.last.relays, c.pins) == {} && r.last.workers[w] == Exited
    decreases if k <= |c.pins| then |c.pins| + 1 - k else 0
  {
    var n := |c.pins|;
    var t := Advance(c, s, w);
    if k <= n {
      var u := Advance(c, t.(audioBusy := false), w);
      SoloLoop(c, u, w, k + 1);
      assert StepsFrom(k, n) == [k] + StepsFrom(k + 1, n);
    } else {
      SoloHold(c, t, w, 0);
    }
  }

  /** A run started at `from` that nothing interrupts lights the steps
      `from`, `from + 1`, …, N in increasing order, one each, then holds all
      lights on for `holdSeconds` ticks (none when it is not positive), and
      ends with `running` clear, `current_step` 0 and every relay off. From a
      step key every visited step names a relay and a clip. */
  lemma SoloRunFromStart(c: Config, s: Room, w: nat, from: int)
    requires w < |s.workers| && s.workers[w] == Begin(from)
    ensures var r := SoloRun(c, s, w);
      && r.steps == StepsFrom(from, |c.pins|) && r.ticks == HoldTicks(c)
      && !r.last.running && r.last.currentStep == 0
      && OnPins(r.last.relays, c.pins) == {} && r.last.workers[w] == Exited
    ensures Valid(c) && 1 <= from ==>
      forall i :: 0 <= i < |SoloRun(c, s, w).steps| ==>
        1 <= SoloRun(c, s, w).steps[i] <= |c.pins| && SoloRun(c, s, w).steps[i] - 1 < |c.clips|
  {
    SoloLoop(c, Advance(c, s, w), w, from);
  }
}

=== FILE: timed_room.dfy ===
/** The timeline controller (TimedRoomController): one continuous track and a
    schedule of windows, each switching one relay on at `onTime` and off at
    `offTime` seconds into the track. A worker samples the elapsed time in a
    loop and evaluates every window in declaration order; when the track
    ends, every scheduled light stays on for the configured number of ticks,
    then all go off.

    As in the step controller, the object's fields form an immutable `Room`
    and every `run_sequence` thread is a program counter in `workers`. The
    clock is not modelled: each tick receives the elapsed time it sampled. */
module TimedRoom {
  import opened Relays

  // ---------------------------------------------------------------------
  // The per-tick window evaluator
  // ---------------------------------------------------------------------

  /** One schedule entry; `activated` is the flag the worker keeps in the
      entry to avoid rewriting a pin that is already in the right state. */
  datatype Window = Window(pin: Pin, onTime: real, offTime: real, activated: bool)

  /** The elapsed time lies in the window's half-open interval. */
  predicate InWindow(w: Window, elapsed: real) {
    w.onTime <= elapsed < w.offTime
  }

  /** The condition of the first `if` of a tick. */
  predicate TurnsOn(w: Window, elapsed: real) {
    InWindow(w, elapsed) && !w.activated
  }

  /** The condition of the second `if` of a tick. */
  predicate TurnsOff(w: Window, elapsed: real) {
    elapsed >= w.offTime && w.activated
  }

  predicate Fires(w: Window, elapsed: real) {
    TurnsOn(w, elapsed) || TurnsOff(w, elapsed)
  }

  /** The flag a window carries after a tick. */
  function NextFlag(w: Window, elapsed: real): bool {
    if TurnsOn(w, elapsed) then true else if TurnsOff(w, elapsed) then false else w.activated
  }

  /** A window never turns on and off in the same tick. */
  lemma OnOffExclusive(w: Window, elapsed: real)
    ensures !(TurnsOn(w, elapsed) && TurnsOff(w, elapsed))
  {
  }

  datatype Eval = Eval(window: Window, relays: RelayMap)

  /** Both `if`s of one tick for one window; the second sees the flag the
      first one wrote. At most one of them writes the window's pin. */
  function TickWindow(w: Window, m: RelayMap, elapsed: real): (r: Eval)
    ensures r.window == w.(activated := NextFlag(w, elapsed))
    ensures TurnsOn(w, elapsed) ==> r.relays == m[w.pin := true]
    ensures TurnsOff(w, elapsed) ==> r.relays == m[w.pin := false]
    ensures !Fires(w, elapsed) ==> r == Eval(w, m)
  {
    var first := if TurnsOn(w, elapsed) then Eval(w.(activated := true), m[w.pin := true]) else Eval(w, m);
    if elapsed >= first.window.offTime && first.window.activated then
      Eval(first.window.(activated := false), first.relays[w.pin := false])
    else
      first
  }

  /** The pins of the windows that fire at `elapsed`. */
  function FiringPins(ws: seq<Window>, elapsed: real): set<Pin> {
    set i | 0 <= i < |ws| && Fires(ws[i], elapsed) :: ws[i].pin
  }

  datatype Sweep = Sweep(windows: seq<Window>, relays: RelayMap)

  /** One tick: every window evaluated in declaration order. Only windows
      whose condition holds change their flag, and only their pins are
      written; every other window and pin is left as it was. */
  function Tick(ws: seq<Window>, m: RelayMap, elapsed: real): (r: Sweep)
    ensures |r.windows| == |ws|
    ensures forall i :: 0 <= i < |ws| ==> r.windows[i] == ws[i].(activated := NextFlag(ws[i], elapsed))
    ensures m.Keys <= r.relays.Keys <= m.Keys + FiringPins(ws, elapsed)
    ensures forall p :: p in m && p !in FiringPins(ws, elapsed) ==> p in r.relays && r.relays[p] == m[p]
    decreases |ws|
  {
    if |ws| == 0 then Sweep([], m)
    else
      var head := TickWindow(ws[0], m, elapsed);
      var rest := Tick(ws[1..], head.relays, elapsed);
      assert FiringPins(ws, elapsed) == (if Fires(ws[0], elapsed) then {ws[0].pin} else {}) + FiringPins(ws[1..], elapsed) by {
        forall p | p in FiringPins(ws[1..], elapsed) ensures p in FiringPins(ws, elapsed) {
          var i :| 0 <= i < |ws[1..]| && Fires(ws[1..][i], elapsed) && ws[1..][i].pin == p;
          assert ws[i + 1] == ws[1..][i];
        }
      }
      Sweep([head.window] + rest.windows, rest.relays)
  }

  /** The start of a run clears every flag. */
  function Reset(ws: seq<Window>): (r: seq<Window>)
    ensures |r| == |ws|
    ensures forall i :: 0 <= i < |ws| ==> !r[i].activated && r[i] == ws[i].(activated := false)
  {
    seq(|ws|, i requires 0 <= i < |ws| => ws[i].(activated := false))
  }

  /** Every flag says whether the elapsed time lies in its window. */
  predicate Consistent(ws: seq<Window>, elapsed: real) {
    forall i :: 0 <= i < |ws| ==> ws[i].activated == InWindow(ws[i], elapsed)
  }

  /** The first tick after the flags were cleared leaves them consistent. */
  lemma TickAfterReset(ws: seq<Window>, m: RelayMap, elapsed: real)
    ensures Consistent(Tick(Reset(ws), m, elapsed).windows, elapsed)
  {
  }

  /** A later tick keeps the flags consistent: a window whose interval was
      entered stays on until its end is reached, and a window whose whole
      interval fell between two samples is never switched on. */
  lemma TickKeepsConsistent(ws: seq<Window>, m: RelayMap, before: real, elapsed: real)
    requires Consistent(ws, before) && before <= elapsed
    ensures Consistent(Tick(ws, m, elapsed).windows, elapsed)
  {
  }

  /** The elapsed samples of one run never go backwards. */
  predicate NonDecreasing(samples: seq<real>) {
    forall i, j :: 0 <= i <= j < |samples| ==> samples[i] <= samples[j]
  }

  function Last(samples: seq<real>): real
    requires |samples| > 0
  {
    samples[|samples| - 1]
  }

  /** The ticks of a worker loop, one per sample. */
  function Run(ws: seq<Window>, m: RelayMap, samples: seq<real>): (r: Sweep)
    ensures |r.windows| == |ws|
    decreases |samples|
  {
    if |samples| == 0 then Sweep(ws, m)
    else
      var t := Tick(ws, m, samples[0]);
      Run(t.windows, t.relays, samples[1..])
  }

  lemma {:induction false} RunKeepsConsistent(ws: seq<Window>, m: RelayMap, before: real, samples: seq<real>)
    requires |samples| > 0 && NonDecreasing(samples) && before <= samples[0]
    requires Consistent(ws, before)
    ensures Consistent(Run(ws, m, samples).windows, Last(samples))
    decreases |samples|
  {
    var t := Tick(ws, m, samples[0]);
    TickKeepsConsistent(ws, m, before, samples[0]);
    if |samples| > 1 {
      RunKeepsConsistent(t.windows, t.relays, samples[0], samples[1..]);
    }
  }

  /** With the flags cleared at the start and non-decreasing samples, after
      every tick each flag equals membership of the last sample in its window. */
  lemma ScheduleFollowsClock(ws: seq<Window>, m: RelayMap, samples: seq<real>)
    requires |samples| > 0 && NonDecreasing(samples)
    ensures Consistent(Run(Reset(ws), m, samples).windows, Last(samples))
  {
    var t := Tick(Reset(ws), m, samples[0]);
    TickAfterReset(ws, m, samples[0]);
    if |samples| > 1 {
      RunKeepsConsistent(t.windows, t.relays, samples[0], samples[1..]);
    }
  }

  // ---------------------------------------------------------------------
  // Relays follow the flags when no two windows share a pin
  // ---------------------------------------------------------------------

  /** The schedule's pins, in declaration order. */
  function Pins(ws: seq<Window>): (r: seq<Pin>)
    ensures |r| == |ws| && forall i :: 0 <= i < |ws| ==> r[i] == ws[i].pin
  {
    seq(|ws|, i requires 0 <= i < |ws| => ws[i].pin)
  }

  /** Each relay of a window is on exactly when its flag is set. */
  predicate RelaysMatch(ws: seq<Window>, m: RelayMap) {
    forall i :: 0 <= i < |ws| ==> ws[i].pin in m && m[ws[i].pin] == ws[i].activated
  }

  /** The pins of the windows containing `elapsed`. */
  function ActivePins(ws: seq<Window>, elapsed: real): set<Pin> {
    set i | 0 <= i < |ws| && InWindow(ws[i], elapsed) :: ws[i].pin
  }

  lemma {:induction false} TickKeepsRelaysMatch(ws: seq<Window>, m: RelayMap, elapsed: real)
    requires Distinct(Pins(ws)) && RelaysMatch(ws, m)
    ensures RelaysMatch(Tick(ws, m, elapsed).windows, Tick(ws, m, elapsed).relays)
    decreases |ws|
  {
    if |ws| > 0 {
      var head := TickWindow(ws[0], m, elapsed);
      var tail := ws[1..];
      assert Pins(tail) == Pins(ws)[1..];
      assert RelaysMatch(tail, head.relays) by {
        forall i | 0 <= i < |tail| ensures tail[i].pin in head.relays && head.relays[tail[i].pin] == tail[i].activated {
          assert tail[i] == ws[i + 1] && Pins(ws)[i + 1] != Pins(ws)[0];
        }
      }
      TickKeepsRelaysMatch(tail, head.relays, elapsed);
      var rest := Tick(tail, head.relays, elapsed);
      assert ws[0].pin !in FiringPins(tail, elapsed) by {
        forall i | 0 <= i < |tail| ensures tail[i].pin != ws[0].pin {
          assert tail[i] == ws[i + 1] && Pins(ws)[i + 1] != Pins(ws)[0];
        }
      }
      assert Tick(ws, m, elapsed) == Sweep([head.window] + rest.windows, rest.relays);
    }
  }

  lemma {:induction false} RunKeepsRelaysMatch(ws: seq<Window>, m: RelayMap, samples: seq<real>)
    requires Distinct(Pins(ws)) && RelaysMatch(ws, m)
    ensures RelaysMatch(Run(ws, m, samples).windows, Run(ws, m, samples).relays)
    decreases |samples|
  {
    if |samples| > 0 {
      var t := Tick(ws, m, samples[0]);
      TickKeepsRelaysMatch(ws, m, samples[0]);
      assert Pins(t.windows) == Pins(ws);
      RunKeepsRelaysMatch(t.windows, t.relays, samples[1..]);
    }
  }

  /** Consistent flags whose relays follow them light exactly the windows
      that contain the elapsed time. */
  lemma MatchedLights(ws: seq<Window>, m: RelayMap, elapsed: real)
    requires Consistent(ws, elapsed) && RelaysMatch(ws, m)
    ensures OnPins(m, Pins(ws)) == ActivePins(ws, elapsed)
  {
    var pins := Pins(ws);
    forall p | p in OnPins(m, pins) ensures p in ActivePins(ws, elapsed) {
      var i :| 0 <= i < |ws| && pins[i] == p;
    }
    forall p | p in ActivePins(ws, elapsed) ensures p in OnPins(m, pins) {
      var i :| 0 <= i < |ws| && InWindow(ws[i], elapsed) && ws[i].pin == p;
      assert pins[i] == p;
    }
  }

  /** Two schedules that differ only in their flags have the same pins and
      the same windows containing any given time. */
  lemma SameWindows(ws: seq<Window>, vs: seq<Window>, elapsed: real)
    requires |ws| == |vs|
    requires forall i :: 0 <= i < |ws| ==> vs[i] == ws[i].(activated := vs[i].activated)
    ensures Pins(vs) == Pins(ws) && ActivePins(vs, elapsed) == ActivePins(ws, elapsed)
  {
    forall p | p in ActivePins(vs, elapsed) ensures p in ActivePins(ws, elapsed) {
      var i :| 0 <= i < |vs| && InWindow(vs[i], elapsed) && vs[i].pin == p;
      assert InWindow(ws[i], elapsed);
    }
    forall p | p in ActivePins(ws, elapsed) ensures p in ActivePins(vs, elapsed) {
      var i :| 0 <= i < |ws| && InWindow(ws[i], elapsed) && ws[i].pin == p;
      assert InWindow(vs[i], elapsed);
    }
  }

  /** A run only ever changes flags, never the windows themselves. */
  lemma {:induction false} RunKeepsWindows(ws: seq<Window>, m: RelayMap, samples: seq<real>)
    ensures var r := Run(ws, m, samples).windows;
      forall i :: 0 <= i < |ws| ==> r[i] == ws[i].(activated := r[i].activated)
    decreases |samples|
  {
    if |samples| > 0 {
      var t := Tick(ws, m, samples[0]);
      RunKeepsWindows(t.windows, t.relays, samples[1..]);
    }
  }

  /** With distinct pins that all start off, after any run of non-decreasing
      samples the lit relays are exactly the pins whose window contains the
      last sample. */
  lemma RunLightsActiveWindows(ws: seq<Window>, m: RelayMap, samples: seq<real>)
    requires Distinct(Pins(ws))
    requires forall i :: 0 <= i < |ws| ==> ws[i].pin in m && !m[ws[i].pin]
    requires |samples| > 0 && NonDecreasing(samples)
    ensures OnPins(Run(Reset(ws), m, samples).relays, Pins(ws)) == ActivePins(ws, Last(samples))
  {
    var start := Reset(ws);
    var r := Run(start, m, samples);
    ScheduleFollowsClock(ws, m, samples);
    SameWindows(ws, start, Last(samples));
    RunKeepsRelaysMatch(start, m, samples);
    RunKeepsWindows(start, m, samples);
    SameWindows(start, r.windows, Last(samples));
    MatchedLights(r.windows, r.relays, Last(samples));
  }

  /** RELAY_SCHEDULE of the default configuration. */
  function DefaultSchedule(): seq<Window> {
    [Window(5, 0.0, 3.0, false), Window(6, 1.0, 5.0, false), Window(13, 2.0, 6.0, false)]
  }

  /** The windows of the default schedule that contain a given time. */
  lemma DefaultActivePins(e: real)
    ensures ActivePins(DefaultSchedule(), e) ==
      (if 0.0 <= e < 3.0 then {5} else {}) + (if 1.0 <= e < 5.0 then {6} else {})
      + (if 2.0 <= e < 6.0 then {13} else {})
  {
    var ws := DefaultSchedule();
    var expected := (if 0.0 <= e < 3.0 then {5} else {}) + (if 1.0 <= e < 5.0 then {6} else {})
      + (if 2.0 <= e < 6.0 then {13} else {});
    forall p | p in ActivePins(ws, e) ensures p in expected {
      var i :| 0 <= i < |ws| && InWindow(ws[i], e) && ws[i].pin == p;
      assert i == 0 || i == 1 || i == 2;
    }
    forall p | p in expected ensures p in ActivePins(ws, e) {
      if p == 5 { assert InWindow(ws[0], e); }
      else if p == 6 { assert InWindow(ws[1], e); }
      else { assert InWindow(ws[2], e); }
    }
  }

  /** The default schedule's pins are 5, 6 and 13, each listed once. */
  lemma DefaultPins()
    ensures Pins(DefaultSchedule()) == [5, 6, 13]
    ensures Distinct(Pins(DefaultSchedule()))
  {
    assert Pins(DefaultSchedule()) == [5, 6, 13];
  }

  /** The four sample times of the default schedule and the windows holding them. */
  lemma DefaultActiveAt(e: real)
    ensures e == 0.5 ==> ActivePins(DefaultSchedule(), e) == {5}
    ensures e == 1.5 ==> ActivePins(DefaultSchedule(), e) == {5, 6}
    ensures e == 3.5 ==> ActivePins(DefaultSchedule(), e) == {6, 13}
    ensures e == 6.5 ==> ActivePins(DefaultSchedule(), e) == {}
  {
    DefaultActivePins(e);
  }

  /** The default schedule sampled at 0.5, 1.5, 3.5 and 6.5 seconds, after any
      earlier non-decreasing samples, lights pin 5, then pins 5 and 6, then
      pins 6 and 13, then nothing. */
  lemma DefaultScheduleLights(m: RelayMap, samples: seq<real>)
    requires forall p :: p in {5, 6, 13} ==> p in m && !m[p]
    requires |samples| > 0 && NonDecreasing(samples)
    ensures var lit := OnPins(Run(Reset(DefaultSchedule()), m, samples).relays, [5, 6, 13]);
      && (Last(samples) == 0.5 ==> lit == {5})
      && (Last(samples) == 1.5 ==> lit == {5, 6})
      && (Last(samples) == 3.5 ==> lit == {6, 13})
      && (Last(samples) == 6.5 ==> lit == {})
  {
    var ws := DefaultSchedule();
    DefaultPins();
    forall i | 0 <= i < |ws| ensures ws[i].pin in m && !m[ws[i].pin] {
      assert ws[i].pin == Pins(ws)[i];
    }
    RunLightsActiveWindows(ws, m, samples);
    DefaultActiveAt(Last(samples));
  }

  // ---------------------------------------------------------------------
  // The controller
  // ---------------------------------------------------------------------

  /** LIGHTS_ON_DURATION: the end-hold length in seconds. */
  datatype Config = Config(holdSeconds: int)

  /** Where one worker thread of `run_sequence` stands. */
  datatype Pc =
    | Begin               // spawned by `start`, has not yet set `running`
    | Ticking             // in the sampling loop
    | Holding(ticks: int) // in the end-hold loop after `ticks` one-second sleeps
    | Finishing           // every light switched off, about to clear `running`
    | Exited

  /** The controller's fields: the schedule with its flags, the relays, the
      mixer's busy flag and the live threads. */
  datatype Room = Room(running: bool, schedule: seq<Window>, relays: RelayMap, audioBusy: bool, workers: seq<Pc>)

  /** The constructor: every scheduled relay off, nothing running. An entry
      without an `activated` key reads as a cleared flag. */
  function Init(schedule: seq<Window>): (r: Room)
    ensures !r.running && !r.audioBusy && r.workers == []
    ensures OnPins(r.relays, Pins(schedule)) == {}
    ensures Pins(r.schedule) == Pins(schedule)
  {
    Room(false, Reset(schedule), SetAll(map[], Pins(schedule), false), false, [])
  }

  /** `start`: spawns a worker only when `running` is clear. */
  function Start(s: Room): (r: Room)
    ensures !s.running ==> r.workers == s.workers + [Begin] && r == s.(workers := r.workers)
    ensures s.running ==> r == s
  {
    if s.running then s else s.(workers := s.workers + [Begin])
  }

  /** `stop_sequence`: clears `running`, stops the mixer and drives every
      scheduled pin off; the flags are left as they are (the next run clears
      them). */
  function StopSequence(s: Room): (r: Room)
    ensures !r.running && !r.audioBusy
    ensures OnPins(r.relays, Pins(s.schedule)) == {}
    ensures r.schedule == s.schedule && r.workers == s.workers
  {
    s.(running := false, audioBusy := false, relays := SetAll(s.relays, Pins(s.schedule), false))
  }

  /** `set_all_relays(on)`: every scheduled pin to the same state. */
  function SetAllRelays(s: Room, on: bool): (r: Room)
    ensures OnPins(r.relays, Pins(s.schedule)) == if on then PinSet(Pins(s.schedule)) else {}
    ensures r == s.(relays := r.relays)
  {
    s.(relays := SetAll(s.relays, Pins(s.schedule), on))
  }

  /** `cleanup`: goes through `stop_sequence`. The keyboard loop has no quit
      key, so this runs only on the way out after a KeyboardInterrupt. */
  function Cleanup(s: Room): (r: Room)
    ensures !r.running && !r.audioBusy && OnPins(r.relays, Pins(s.schedule)) == {}
    ensures r.schedule == s.schedule && r.workers == s.workers
  {
    StopSequence(s)
  }

  /** One turn of the keyboard loop: '7' and '8' stop and switch every light on
      or off, '9' and '1' stop and start again, any other key does nothing.
      This controller has no quit key. The whole handler is one atomic event
      here; the source lets a worker run during the bounded join between the
      stop and the start. */
  function Press(s: Room, key: char): (r: Room)
    ensures key == '7' ==> !r.running && OnPins(r.relays, Pins(s.schedule)) == PinSet(Pins(s.schedule))
    ensures key == '8' ==> !r.running && OnPins(r.relays, Pins(s.schedule)) == {}
    ensures key == '9' || key == '1' ==>
      !r.running && OnPins(r.relays, Pins(s.schedule)) == {} && r.workers == s.workers + [Begin]
    ensures key !in "7891" ==> r == s
    ensures r.schedule == s.schedule
  {
    if key == '7' then SetAllRelays(StopSequence(s), true)
    else if key == '8' then SetAllRelays(StopSequence(s), false)
    else if key == '9' || key == '1' then Start(StopSequence(s))
    else s
  }

  /** One atomic step of worker `w`; `elapsed` is the time it samples when it
      evaluates the schedule. */
  function Advance(c: Config, s: Room, w: nat, elapsed: real): (r: Room)
    requires w < |s.workers|
    ensures |r.workers| == |s.workers|
    ensures forall v :: 0 <= v < |s.workers| && v != w ==> r.workers[v] == s.workers[v]
    ensures Pins(r.schedule) == Pins(s.schedule)
  {
    var pins := Pins(s.schedule);
    match s.workers[w]
    case Begin =>
      s.(running := true, schedule := Reset(s.schedule), audioBusy := true, workers := s.workers[w := Ticking])
    case Ticking =>
      if s.running && s.audioBusy then
        var t := Tick(s.schedule, s.relays, elapsed);
        assert Pins(t.windows) == pins;
        s.(schedule := t.windows, relays := t.relays)
      else if s.running then
        s.(relays := SetAll(s.relays, pins, true), workers := s.workers[w := Holding(0)])
      else
        s.(workers := s.workers[w := Finishing])
    case Holding(ticks) =>
      if ticks < c.holdSeconds && s.running then s.(workers := s.workers[w := Holding(ticks + 1)])
      else s.(relays := SetAll(s.relays, pins, false), workers := s.workers[w := Finishing])
    case Finishing =>
      s.(running := false, workers := s.workers[w := Exited])
    case Exited =>
      s
  }

  /** A worker that begins clears every flag before its first tick, so each
      run evaluates the schedule from scratch. */
  lemma BeginClearsFlags(c: Config, s: Room, w: nat, elapsed: real)
    requires w < |s.workers| && s.workers[w] == Begin
    ensures var r := Advance(c, s, w, elapsed);
      && r.running && r.workers[w] == Ticking
      && forall i :: 0 <= i < |r.schedule| ==> !r.schedule[i].activated
  {
  }

  /** A tick of a running worker keeps the relays and flags in step with the
      clock: with distinct pins, consistent flags at an earlier sample and a
      later sample, the lit relays afterwards are the windows holding it. */
  lemma WorkerTickFollowsClock(c: Config, s: Room, w: nat, before: real, elapsed: real)
    requires w < |s.workers| && s.workers[w] == Ticking && s.running && s.audioBusy
    requires Distinct(Pins(s.schedule)) && RelaysMatch(s.schedule, s.relays)
    requires Consistent(s.schedule, before) && before <= elapsed
    ensures var r := Advance(c, s, w, elapsed);
      && r.workers[w] == Ticking
      && Consistent(r.schedule, elapsed) && RelaysMatch(r.schedule, r.relays)
      && OnPins(r.relays, Pins(s.schedule)) == ActivePins(s.schedule, elapsed)
  {
    var r := Advance(c, s, w, elapsed);
    var t := Tick(s.schedule, s.relays, elapsed);
    assert r.schedule == t.windows && r.relays == t.relays;
    TickKeepsConsistent(s.schedule, s.relays, before, elapsed);
    TickKeepsRelaysMatch(s.schedule, s.relays, elapsed);
    forall p | p in OnPins(r.relays, Pins(s.schedule)) ensures p in ActivePins(s.schedule, elapsed) {
      var i :| 0 <= i < |s.schedule| && Pins(s.schedule)[i] == p;
      assert r.schedule[i].pin == p;
    }
    forall p | p in ActivePins(s.schedule, elapsed) ensures p in OnPins(r.relays, Pins(s.schedule)) {
      var i :| 0 <= i < |s.schedule| && InWindow(s.schedule[i], elapsed) && s.schedule[i].pin == p;
      assert r.schedule[i].pin == p && r.schedule[i].activated;
      assert Pins(s.schedule)[i] == p;
    }
  }

  /** When the track ends with `running` still set, every scheduled light goes
      on; the hold sleeps one tick at a time while `running` holds and fewer
      than `holdSeconds` ticks have passed, then every scheduled light goes off;
      a stopped worker skips the hold altogether. */
  lemma EndHold(c: Config, s: Room, w: nat, elapsed: real)
    requires w < |s.workers|
    ensures var r := Advance(c, s, w, elapsed);
      var pins := Pins(s.schedule);
      && (s.workers[w] == Ticking && s.running && !s.audioBusy ==>
            r.workers[w] == Holding(0) && OnPins(r.relays, pins) == PinSet(pins))
      && (s.workers[w] == Ticking && !s.running ==>
            r.workers[w] == Finishing && r.relays == s.relays)
      && (s.workers[w].Holding? && s.workers[w].ticks < c.holdSeconds && s.running ==>
            r.workers[w] == Holding(s.workers[w].ticks + 1) && r.relays == s.relays)
      && (s.workers[w].Holding? && !(s.workers[w].ticks < c.holdSeconds && s.running) ==>
            r.workers[w] == Finishing && OnPins(r.relays, pins) == {})
      && (s.workers[w] == Finishing ==> !r.running && r.workers[w] == Exited)
  {
  }

  // ---------------------------------------------------------------------
  // The interleaving
  // ---------------------------------------------------------------------

  /** A key press, one step of one worker sampling `elapsed`, the mixer
      reaching the end of the track, or a KeyboardInterrupt ending the loop,
      whose `finally` runs `cleanup`. */
  datatype Event = Key(key: char) | Work(w: nat, elapsed: real) | ClipEnds | Interrupt

  function Next(c: Config, s: Room, e: Event): (r: Room)
    ensures |s.workers| <= |r.workers|
    ensures Pins(r.schedule) == Pins(s.schedule)
  {
    match e
    case Key(key) => Press(s, key)
    case Work(w, elapsed) => if w < |s.workers| then Advance(c, s, w, elapsed) else s
    case ClipEnds => s.(audioBusy := false)
    case Interrupt => Cleanup(s)
  }

  /** When the track ends under a running worker, its next step turns every
      scheduled light on and starts the end-hold. */
  lemma TrackEndStartsHold(c: Config, s: Room, w: nat, elapsed: real)
    requires w < |s.workers| && s.workers[w] == Ticking && s.running
    ensures var r := Next(c, Next(c, s, ClipEnds), Work(w, elapsed));
      && r.workers[w] == Holding(0) && r.running
      && OnPins(r.relays, Pins(s.schedule)) == PinSet(Pins(s.schedule))
  {
    var ended := Next(c, s, ClipEnds);
    EndHold(c, ended, w, elapsed);
  }

  /** A hold never counts past `holdSeconds` (or past 0 when that is not positive). */
  predicate PcOk(c: Config, pc: Pc) {
    match pc
    case Holding(t) => 0 <= t && (t == 0 || t <= c.holdSeconds)
    case _ => true
  }

  /** Facts every reachable room satisfies: the schedule keeps the pins it
      was built with, every scheduled pin has been written, and every hold
      stays within its bound. */
  predicate Inv(c: Config, pins: seq<Pin>, s: Room) {
    && Pins(s.schedule) == pins
    && PinSet(pins) <= s.relays.Keys
    && forall w :: 0 <= w < |s.workers| ==> PcOk(c, s.workers[w])
  }

  lemma InvInit(c: Config, schedule: seq<Window>)
    ensures Inv(c, Pins(schedule), Init(schedule))
  {
  }

  lemma InvAdvance(c: Config, pins: seq<Pin>, s: Room, w: nat, elapsed: real)
    requires Inv(c, pins, s) && w < |s.workers|
    ensures Inv(c, pins, Advance(c, s, w, elapsed))
  {
    var r := Advance(c, s, w, elapsed);
    assert PcOk(c, s.workers[w]);
    assert PinSet(pins) <= r.relays.Keys;
    forall v | 0 <= v < |r.workers| ensures PcOk(c, r.workers[v]) {
      if v != w {
        assert r.workers[v] == s.workers[v];
      }
    }
  }

  lemma InvPress(c: Config, pins: seq<Pin>, s: Room, key: char)
    requires Inv(c, pins, s)
    ensures Inv(c, pins, Press(s, key))
  {
    var r := Press(s, key);
    assert PinSet(pins) <= r.relays.Keys;
    forall v | 0 <= v < |r.workers| ensures PcOk(c, r.workers[v]) {
      if v < |s.workers| {
        assert r.workers[v] == s.workers[v];
      }
    }
  }

  /** However keys, workers and the final interrupt interleave, the
      schedule's pins never change, every scheduled relay has a value, and no
      hold runs past its bound. */
  lemma InvNext(c: Config, pins: seq<Pin>, s: Room, e: Event)
    requires Inv(c, pins, s)
    ensures Inv(c, pins, Next(c, s, e))
  {
    match e
    case Key(key) => InvPress(c, pins, s, key);
    case Work(w, elapsed) => if w < |s.workers| { InvAdvance(c, pins, s, w, elapsed); }
    case ClipEnds =>
    case Interrupt =>
  }
}
